=== FILE: README.md ===
# Medication dashboard: a Dafny model of its adherence views and widget rules

This project models the decision logic of a family medical dashboard: a
caregiver and a patient share a list of medications, log doses against
daily time slots, and use a handful of small widgets (check-ins, tasks,
doctor contacts, care activities, a sync indicator).

The model is purely functional. The clock, the connectivity flag and the
stored rows are passed in as values. Instants are integer milliseconds, and
times of day are "HH:MM" strings or parsed `(hour, minute)` pairs.

It covers:

- **CountdownTimer**: the as-needed (PRN) dose gate. It decides ready or cooling down, and computes the hours and rounded-up minutes to wait, the countdown text and the progress value.
- **DailySchedule** and **TimeSlot**: the daily timeline.
  - Medications are split into scheduled and as-needed.
  - The sorted, duplicate-free slot times are taken from the flat `schedule_times`.
  - Each slot lists the medications due then, and each card gets the first log with an equal medication id and slot string.
  - The view also has the `completedCount`/`totalScheduled` counters, the 12-hour label and the past/current emphasis.
- **MedicationCard**: the taken/skipped/logged status, the buttons offered, and the request each button sends.
- **AddMedicationForm** and **DayTimePicker**: the add-medication wizard.
  - The day and time reducers.
  - The schedule and request built on submit, and the submit and next guards.
  - Step navigation.
  - The picker's ordering, fallback-time and remove-button rules.
- **FeelingCheckin**, **TaskList**, **DoctorContacts**, **QuickActivity**: the smaller widget rules. These are period classification, partitions, guards with trimming, fallbacks and list caps.
- **SyncStatus**: the synced/syncing/offline state machine. Its timer is an explicit event.

Supporting modules:

- `Wrappers`: `Option`, and `Find`/`Filter`/`Take` with the semantics of `Array.find`, `Array.filter` and `slice(0, n)`.
- `Text`: `String.prototype.trim`, decimal rendering and parsing, and two-digit padding.
- `Ordering`: the default string sort order and numeric ascending sort.
- `Records`: the stored medication and log rows.

Where the design description and the code differ, the model follows the
code:

- The daily view groups the flat `schedule_times` with no weekday filter (src/components/medications/DailySchedule.tsx:19). The `{day, time}` entries the form writes are never read back by the view.
- Insert-or-update-by-slot ("upsert") is described for logging, but it lives in server actions that are not part of this model. Only the request each component issues is modelled.
- A zero or negative interval is not rejected anywhere in the code. A zero interval gives a progress of minus infinity (`Progress.NegativeInfinity`).

## Model

| member | source | states |
|---|---|---|
| CountdownTimer.HoursToMs | src/components/medications/CountdownTimer.tsx:29 | A whole number of hours converts to milliseconds that split back into exactly that many hours with nothing left over |
| CountdownTimer.SplitRemaining | src/components/medications/CountdownTimer.tsx:45-46 | Hours are the whole hours of the positive remaining time. The hours plus the rounded-up minutes never understate the wait and overstate it by less than a minute. Minutes are at most 60. With 0 hours the minutes are at least 1 |
| CountdownTimer.Display | src/components/medications/CountdownTimer.tsx:48 | The text has an hours part ('h') exactly when hours > 0 and always ends in "m" |
| CountdownTimer.DisplayRoundTrip | src/components/medications/CountdownTimer.tsx:48 | The countdown text is unambiguous: it parses back to exactly the hours and minutes it was made from |
| CountdownTimer.ProgressOf | src/components/medications/CountdownTimer.tsx:41-43 | The progress is minus infinity exactly when the interval is 0, and otherwise never exceeds 100. For a positive interval not shorter than the remaining time it lies in [0, 100) |
| CountdownTimer.Evaluate | src/components/medications/CountdownTimer.tsx:19-48 | No last dose means Ready. Ready holds exactly when now >= lastTaken + interval, so the boundary counts. When cooling down the hours are the whole hours of the remaining time, the hours and rounded-up minutes bracket it to within a minute, the text reads back to them, and the progress lies in [0, 100) for a positive interval |
| CountdownTimer.JustTakenShowsWholeInterval | src/components/medications/CountdownTimer.tsx:29-48 | At the instant of a dose with a whole-hour interval of h > 0 hours the countdown reads "<h>h 0m" with an empty bar. A zero interval is Ready at once |
| CountdownTimer.BoundaryIsReady | src/components/medications/CountdownTimer.tsx:28-48 | At lastTaken + interval the gate is Ready. One millisecond earlier it cools down with 0 hours and 1 minute, displayed "1m" and never "0m" |
| Ordering.BelowIrreflexive | src/components/medications/DailySchedule.tsx:19 | No string sorts before itself under the default sort order |
| Ordering.BelowTransitive | src/components/medications/DailySchedule.tsx:19 | The default string order is transitive |
| Ordering.BelowTotal | src/components/medications/DailySchedule.tsx:19 | Any two distinct strings are ordered one way or the other |
| Ordering.BelowAsymmetric | src/components/medications/DailySchedule.tsx:19 | Two strings are never each below the other |
| Ordering.InsertUnique | src/components/medications/DailySchedule.tsx:19 | Inserting into a strictly sorted list keeps it strictly sorted. The result holds exactly the old elements plus the new one |
| Ordering.StrictlySortedUnique | src/components/medications/DailySchedule.tsx:19 | Two strictly sorted lists with the same elements are equal, so the sorted set of slot times is determined by its elements |
| Ordering.InsertAscending | src/components/medications/DayTimePicker.tsx:62 | Inserting a number into an ascending list keeps it ascending and adds exactly that number |
| Ordering.SortAscending | src/components/medications/DayTimePicker.tsx:62 | `sort((a, b) => a - b)` yields an ascending permutation of its input |
| TimeSlot.ParseClock | src/components/medications/TimeSlot.tsx:11 | A time is read exactly when it has the form two digits, colon, two digits |
| TimeSlot.DisplayHour | src/components/medications/TimeSlot.tsx:13 | The 12-hour display hour lies in 1..12 and agrees with the hour modulo 12, so 0 shows as 12 |
| TimeSlot.Meridiem | src/components/medications/TimeSlot.tsx:12 | The suffix is "PM" exactly from hour 12 on, and "AM" otherwise |
| TimeSlot.FormatTime | src/components/medications/TimeSlot.tsx:10-15 | The label ends in " AM" or " PM" by the half of the day, and the minutes follow a colon as exactly two digits |
| TimeSlot.FormatTimeRoundTrip | src/components/medications/TimeSlot.tsx:10-15 | For every hour below 24, the 12-hour label with two-digit minutes reads back to the same hour and minute |
| TimeSlot.FormatMidnightAndNoon | src/components/medications/MedicationCard.tsx:15-20 | Hour 0 formats as "12:mm AM" and hour 12 as "12:mm PM" |
| TimeSlot.IsPast | src/components/medications/TimeSlot.tsx:17-21 | For real clock readings, isPast is exactly "minutes since midnight have reached the slot's" |
| TimeSlot.IsCurrent | src/components/medications/TimeSlot.tsx:23-27 | For real clock readings, isCurrent is exactly "the current time and the slot lie in the same 60-minute block since midnight" |
| TimeSlot.CurrentBeforeAndAfterSlot | src/components/medications/TimeSlot.tsx:17-27 | isCurrent ignores minutes: at 8:10 an 8:30 slot is current but not past, and at 8:45 it is both |
| TimeSlot.EmphasisOf | src/components/medications/TimeSlot.tsx:37-39 | The slot is emphasised as current exactly in its hour, as past exactly when it has passed and is not current, and as upcoming exactly when its hour is later than now |
| TimeSlot.MatchLog | src/components/medications/TimeSlot.tsx:51-53 | The matched log has the card's medication id and exactly the slot string, and is the first such log. There is none exactly when no log matches |
| TimeSlot.MatchLogIsolation | src/components/medications/TimeSlot.tsx:51-53 | Adding a log for another medication or another slot, before or after the others, never changes which log a card shows |
| TimeSlot.FindAppend | src/components/medications/TimeSlot.tsx:51-53 | Appending elements that do not satisfy the predicate does not change the first match |
| TimeSlot.Cards | src/components/medications/TimeSlot.tsx:50-62 | There is one card per medication, in input order, each at the slot time. Each card shows a log of that medication and slot, or none exactly when no such log exists |
| TimeSlot.Header | src/components/medications/TimeSlot.tsx:37-45 | The label is present exactly for a readable time and, for hours below 24, reads back to that time. Its colour is EmphasisOf the clock and the slot (current, else past, else upcoming). It shows "Now" exactly in the slot's hour, which is exactly when the colour is the current one |
| MedicationCard.StatusOf | src/components/medications/MedicationCard.tsx:26-28 | Taken and skipped exclude each other. The card is logged exactly when it has a log, and taken/skipped follow its status |
| MedicationCard.ActionsOf | src/components/medications/MedicationCard.tsx:95-123 | A logged card offers only Undo. An unlogged card offers only Skip and Take |
| MedicationCard.HandleLog | src/components/medications/MedicationCard.tsx:30-34 | A log request carries the card's medication id, the chosen status and the card's slot unchanged |
| MedicationCard.HandleUndo | src/components/medications/MedicationCard.tsx:36-41 | Undo sends nothing without a log, and otherwise asks to remove that log |
| MedicationCard.Press | src/components/medications/MedicationCard.tsx:95-123 | While a request is pending every button is disabled and a press sends nothing. Otherwise Undo runs the undo handler, and Skip and Take send a log request, "taken" exactly for Take |
| MedicationCard.OfferedActionsIssueRequests | src/components/medications/MedicationCard.tsx:95-123 | An offered button sends exactly one request exactly when nothing is pending. On a logged card it removes that log. On an unlogged card it logs this medication at this slot, with "taken" exactly for Take |
| MedicationCard.PrnHandleLog | src/components/medications/MedicationCard.tsx:134-137 | The as-needed card always logs "taken" with no slot |
| MedicationCard.PrnPress | src/components/medications/MedicationCard.tsx:134-183 | The Log button sends a "taken" request with no slot for this medication exactly when nothing is pending |
| DailySchedule.Scheduled | src/components/medications/DailySchedule.tsx:15 | Exactly the non-PRN medications are scheduled |
| DailySchedule.Prn | src/components/medications/DailySchedule.tsx:16 | Exactly the PRN medications are as-needed |
| DailySchedule.SplitIsPartition | src/components/medications/DailySchedule.tsx:15-16 | The two groups together are a permutation of the input: each medication lands in exactly one, as often as it occurs |
| DailySchedule.SplitStep | src/components/medications/DailySchedule.tsx:15-16 | Appending a medication adds it at the end of exactly one group, so both groups keep the input order |
| DailySchedule.TotalScheduled | src/components/medications/DailySchedule.tsx:22 | totalScheduled is 0 exactly when every medication is PRN or lists no times |
| DailySchedule.TotalScheduledAppend | src/components/medications/DailySchedule.tsx:22 | totalScheduled adds up over concatenation |
| DailySchedule.TotalScheduledSingle | src/components/medications/DailySchedule.tsx:22 | A scheduled medication contributes its whole list length, repeats included, and a PRN one contributes 0 |
| DailySchedule.InsertAll | src/components/medications/DailySchedule.tsx:19 | Adding a batch of times to a strictly sorted list keeps it strictly sorted, holding exactly the old and new times |
| DailySchedule.SlotTimes | src/components/medications/DailySchedule.tsx:15-19 | The slots are strictly ascending with no repeats. A time is a slot exactly when some non-PRN medication lists it. There are never more slots than totalScheduled |
| DailySchedule.SlotTimesDistinct | src/components/medications/DailySchedule.tsx:19 | No slot time appears twice |
| DailySchedule.PrnContributesNothing | src/components/medications/DailySchedule.tsx:15-22 | Adding a PRN medication changes neither the slots nor totalScheduled, whatever its schedule_times |
| DailySchedule.MedsAt | src/components/medications/DailySchedule.tsx:53 | A slot lists exactly the non-PRN medications whose list contains that time |
| DailySchedule.MedsAtStep | src/components/medications/DailySchedule.tsx:53 | Appending a medication adds it at the end of a slot exactly when it is scheduled and lists that time, so a slot's cards follow the order of the medications list |
| DailySchedule.SlotsAreNonEmpty | src/components/medications/DailySchedule.tsx:52-53 | Every slot has at least one medication |
| DailySchedule.CompletedCount | src/components/medications/DailySchedule.tsx:23 | completedCount never exceeds the number of logs |
| DailySchedule.CompletedCountStep | src/components/medications/DailySchedule.tsx:23 | completedCount grows by one for each log with a slot, whatever medication or time it names, and ignores PRN logs |
| DailySchedule.CompletedCountOvercounts | src/components/medications/DailySchedule.tsx:22-23 | Two logs for the one scheduled dose count twice, so completedCount can exceed totalScheduled |
| DailySchedule.BarWidth | src/components/medications/DailySchedule.tsx:46 | The bar is 0 when nothing is scheduled, and otherwise completed/total of 100, within [0, 100] while completed <= total |
| DailySchedule.PrnLogs | src/components/medications/DailySchedule.tsx:74 | An as-needed card's logs are exactly the logs with its id, whatever their slot |
| DailySchedule.PrnLogsStep | src/components/medications/DailySchedule.tsx:74 | Appending a log extends the list by it exactly when it has the card's id, so input order is kept |
| DailySchedule.Row | src/components/medications/DailySchedule.tsx:52-60 | A timeline row is for its time, has the slot header for the current clock, and has the cards of exactly the medications due then, each with its matched log |
| DailySchedule.View | src/components/medications/DailySchedule.tsx:13-80 | There is one row per slot time, in slot order, each the row of that time. There is one as-needed card per PRN medication, in order, listing exactly that medication's logs. The counters are completedCount and totalScheduled, completedCount never exceeds the number of logs, and the bar is their percentage. "All done" shows exactly when completedCount equals totalScheduled and something is scheduled |
| DailySchedule.ViewTimeline | src/components/medications/DailySchedule.tsx:19-62 | The timeline rows run in strictly ascending time order and none is empty |
| AddMedicationForm.ToggleDay | src/components/medications/AddMedicationModal.tsx:57-67 | The toggle flips that day's membership and leaves every other day's membership and times alone. The day has times exactly when selected. A newly selected day keeps its times or gets ["08:00"] |
| AddMedicationForm.SelectAllDays | src/components/medications/AddMedicationModal.tsx:69-79 | With seven days selected it clears days and times. Otherwise it selects 0..6, keeping each day's times or defaulting to ["08:00"] |
| AddMedicationForm.AddTime | src/components/medications/AddMedicationModal.tsx:81-89 | It appends "20:00" to the day's list, an absent list counting as ["08:00"]. Other days are unchanged |
| AddMedicationForm.RemoveAt | src/components/medications/AddMedicationModal.tsx:96 | It deletes exactly the element at a valid index, shifting the rest. Any other index leaves the list as it was |
| AddMedicationForm.ReplaceAt | src/components/medications/AddMedicationModal.tsx:106 | It replaces only the element at the index and keeps the length |
| AddMedicationForm.RemoveTime | src/components/medications/AddMedicationModal.tsx:91-99 | The day's list loses the indexed time and an absent list becomes empty. Other days and the selection are unchanged |
| AddMedicationForm.ChangeTime | src/components/medications/AddMedicationModal.tsx:101-109 | The day's list has the indexed time replaced. Other days and the selection are unchanged |
| AddMedicationForm.DayEntries | src/components/medications/AddMedicationModal.tsx:116-118 | A day contributes one entry per time, in order |
| AddMedicationForm.Entries | src/components/medications/AddMedicationModal.tsx:115-119 | There are as many entries as the listed days' times, and exactly the (selected day, time of that day) pairs |
| AddMedicationForm.EntriesAppend | src/components/medications/AddMedicationModal.tsx:115-119 | The entries of two runs of selected days are the first run's followed by the second's, so an earlier-selected day's entries come first |
| AddMedicationForm.EntriesSingle | src/components/medications/AddMedicationModal.tsx:116-118 | A single selected day contributes exactly its times, in order |
| AddMedicationForm.EntriesByDay | src/components/medications/AddMedicationModal.tsx:115-119 | Walking an ascending day list gives the entries in ascending day order |
| AddMedicationForm.EntriesAreFlatMap | src/components/medications/AddMedicationModal.tsx:115-119 | The entries are the nested forEach: each selected day's block of entries, day by day |
| AddMedicationForm.EntriesPerDay | src/components/medications/AddMedicationModal.tsx:113-120 | With each day selected once, the entries for a day are exactly that day's times in their order, and nothing for unselected days |
| AddMedicationForm.BuildSchedule | src/components/medications/AddMedicationModal.tsx:113-120 | The schedule is empty for PRN. Otherwise it has one entry per selected day and time, and an unset type counts as scheduled. It follows the order of the form's day list, then each day's stored time order (EntriesAppend, EntriesPerDay). By the time Submit is reachable, the picker's in-place sort has made that day list ascending (DayTimePicker.SortKeepsMeaning) |
| AddMedicationForm.NullIfEmpty | src/components/medications/AddMedicationModal.tsx:125-126 | `x \|\| null`: the empty text becomes null, and any other text is kept |
| AddMedicationForm.SubmitRequest | src/components/medications/AddMedicationModal.tsx:123-134 | The request has PRN set exactly for a PRN form, so null goes as false. Empty dosage and purpose go as null. A minimum interval is sent exactly for PRN with a non-empty entry. Notes are null and the name is untrimmed |
| AddMedicationForm.SubmitOutcome | src/components/medications/AddMedicationModal.tsx:139-140 | A submit sends the form's request only on step 3 when not pending. There a PRN medication always sends, and a scheduled one sends exactly when a day is selected |
| AddMedicationForm.Step | src/components/medications/AddMedicationModal.tsx:143-321 | Back goes 3 to 2 and 2 to 1. Next leaves step 1 exactly for a non-blank name, and a blocked Next, like Back on step 1, leaves the wizard unchanged. The type choice sets isPrn and moves to step 3. Close resets. Next and Back never touch the form or the pending flag, a type choice changes only isPrn and the step, and a submit changes only the pending flag |
| AddMedicationForm.StepKeepsGood | src/components/medications/AddMedicationModal.tsx:143-321 | Every transition keeps the step in 1..3 and keeps a chosen type on step 3 |
| AddMedicationForm.RunKeepsGood | src/components/medications/AddMedicationModal.tsx:143-321 | That holds after any run of events, so step 3 is only ever reached with a chosen type |
| AddMedicationForm.InitialWizardIsGood | src/components/medications/AddMedicationModal.tsx:43-50 | The initial wizard, step 1 with the empty form, satisfies it |
| AddMedicationForm.ToggleKeepsConsistent | src/components/medications/AddMedicationModal.tsx:57-67 | A day-button toggle keeps the days distinct, within 0..6, and keyed exactly like dayTimes |
| AddMedicationForm.SelectAllKeepsConsistent | src/components/medications/AddMedicationModal.tsx:69-79 | Select-all keeps that consistency |
| AddMedicationForm.TimeEditsKeepConsistent | src/components/medications/AddMedicationModal.tsx:81-109 | Adding, removing or changing a time of a selected day keeps that consistency |
| AddMedicationForm.SevenMeansEveryDay | src/components/medications/AddMedicationModal.tsx:71 | In a consistent form, seven selected days means every weekday is selected, and conversely |
| DayTimePicker.SelectAllLabel | src/components/medications/DayTimePicker.tsx:38 | The header reads "Clear all" exactly when seven days are selected, and "Every day" otherwise |
| DayTimePicker.DayButtons | src/components/medications/DayTimePicker.tsx:42-55 | There are seven buttons, Sunday first, each highlighted exactly when its day is selected |
| DayTimePicker.ShownTimes | src/components/medications/DayTimePicker.tsx:65 | The inputs show the stored list, or ["08:00"] when it is absent |
| DayTimePicker.DayName | src/components/medications/DayTimePicker.tsx:64 | A weekday 0..6 has its name, and no other day has one |
| DayTimePicker.Rows | src/components/medications/DayTimePicker.tsx:62-65 | There is one row per day given, in that order |
| DayTimePicker.SortInPlace | src/components/medications/DayTimePicker.tsx:62 | Rendering leaves the form's own day list as an ascending permutation of itself, and nothing else changes |
| DayTimePicker.Render | src/components/medications/DayTimePicker.tsx:38-65 | The picker shows the header label, the day buttons and one row per selected day, in the order of the in-place sort |
| DayTimePicker.SortKeepsMeaning | src/components/medications/DayTimePicker.tsx:62 | Sorting a consistent form's days in place keeps it consistent. It submits the same entries, now in ascending day order, with each selected day's stored times in order and nothing for other days |
| DayTimePicker.RenderOrdersDays | src/components/medications/DayTimePicker.tsx:62 | For a consistent form the rows are in strictly ascending weekday order and all named. The sorted form stays consistent and submits the same entries, now in ascending day order |
| DayTimePicker.FilledShowsStored | src/components/medications/DayTimePicker.tsx:65 | When every stored list is non-empty, a selected day shows exactly its stored times, never the fallback |
| DayTimePicker.ToggleKeepsFilled | src/components/medications/AddMedicationModal.tsx:57-67 | A day toggle keeps the form consistent with every stored list non-empty |
| DayTimePicker.SelectAllKeepsFilled | src/components/medications/AddMedicationModal.tsx:69-79 | Select-all, selecting or clearing, keeps the form consistent with every stored list non-empty |
| DayTimePicker.Removable | src/components/medications/DayTimePicker.tsx:74 | A day's times are removable exactly when its stored list has more than one time, so a shown fallback time can never be removed |
| DayTimePicker.TimeControlsKeepFilled | src/components/medications/DayTimePicker.tsx:74 | Adding and editing keep every stored list non-empty. So does removing, since it is offered only while the stored list has more than one time |
| FeelingCheckin.PeriodKey | src/components/checkins/FeelingCheckin.tsx:20-25 | Each period has its own stored key |
| FeelingCheckin.PeriodOf | src/components/checkins/FeelingCheckin.tsx:20-25 | It is morning exactly before 12, afternoon exactly from 12 to before 17, and evening exactly from 17 |
| FeelingCheckin.CheckinFor | src/components/checkins/FeelingCheckin.tsx:56 | The existing check-in is the first with the period's key. There is none exactly when no check-in has it |
| FeelingCheckin.LevelOr5 | src/components/checkins/FeelingCheckin.tsx:58-60 | `level \|\| 5`: a missing level and a stored 0 both start at 5, and any other level is kept |
| FeelingCheckin.Defaults | src/components/checkins/FeelingCheckin.tsx:58-61 | Without a check-in the sliders start at 5, 5, 5 with empty notes. Otherwise they take its non-zero levels and its notes, a null note reading as "" |
| FeelingCheckin.DefaultsOnScale | src/components/checkins/FeelingCheckin.tsx:58-60 | Stored levels on the 1..10 scale (or 0) give slider starts on the scale |
| FeelingCheckin.Submit | src/components/checkins/FeelingCheckin.tsx:65-70 | The save request carries the current period's key and the slider and note values unchanged |
| FeelingCheckin.UntouchedSaveResends | src/components/checkins/FeelingCheckin.tsx:56-67 | Saving the untouched form re-sends the stored check-in's period, its non-zero levels and its notes, a null note going as "" |
| FeelingCheckin.CellFor | src/components/checkins/FeelingCheckin.tsx:89-102 | A cell shows the pain level exactly when its period has a check-in, and "Due now" exactly for the current period without one |
| FeelingCheckin.CellText | src/components/checkins/FeelingCheckin.tsx:89-102 | "Due now" and "--" appear exactly for their cells, and a logged cell reads "Pain .../10", so the three kinds never read alike |
| FeelingCheckin.Summary | src/components/checkins/FeelingCheckin.tsx:86-105 | The summary shows exactly while collapsed with at least one check-in today, as three cells: morning, afternoon, evening |
| FeelingCheckin.OnlyCurrentIsDue | src/components/checkins/FeelingCheckin.tsx:98-102 | Only the current period's cell can read "Due now" |
| FeelingCheckin.Heading | src/components/checkins/FeelingCheckin.tsx:113 | The heading names the period and adds "(updating)" exactly when a check-in exists |
| FeelingCheckin.ButtonLabel | src/components/checkins/FeelingCheckin.tsx:129 | The button reads "Saving..." while pending, otherwise "Update Check-in" with an existing check-in and "Save Check-in" without |
| FeelingCheckin.SummaryAgreesWithForm | src/components/checkins/FeelingCheckin.tsx:86-129 | The current period's cell shows a pain level exactly when the button says "Update Check-in", and a non-zero level there is where the pain slider starts. It says "Due now" exactly when the button says "Save Check-in" |
| TaskList.ProfileById | src/components/tasks/TaskList.tsx:32 | The profile map gives, for an id, the last profile with that id, and nothing exactly when no profile has it |
| TaskList.ProfileByIdLastWins | src/components/tasks/TaskList.tsx:32 | Adding a profile makes it the one found for its id and changes no other id's entry |
| TaskList.OtherUser | src/components/tasks/TaskList.tsx:33 | otherUser is the first profile that is not the current user, and there is none exactly when every profile is the current user |
| TaskList.OtherEmail | src/components/tasks/TaskList.tsx:34 | otherEmail is the other user's email, or "" without one |
| TaskList.NameOrOther | src/components/tasks/TaskList.tsx:113 | A non-empty display name is shown, and a missing profile, a null name or an empty name read "other" |
| TaskList.Pending | src/components/tasks/TaskList.tsx:36 | The pending list holds exactly the tasks with status "pending" |
| TaskList.Completed | src/components/tasks/TaskList.tsx:37 | The completed list holds exactly the tasks with status "completed" |
| TaskList.PendingCompletedPartition | src/components/tasks/TaskList.tsx:36-37 | No task is in both lists. When every status is one of the two, the lists together are a permutation of the tasks |
| TaskList.AssigneeLine | src/components/tasks/TaskList.tsx:96-113 | A task reads "For you" exactly when assigned to the current user, and otherwise "For " followed by the assignee's name or "other" |
| TaskList.HandleCreate | src/components/tasks/TaskList.tsx:39-42 | A blank title sends nothing. Otherwise the request is the trimmed title, "" and otherEmail |
| TaskList.CreatedTitleIsClean | src/components/tasks/TaskList.tsx:40-42 | A created task's title is not blank, has nothing left to trim, and is no longer than what was typed |
| TaskList.AssignCaption | src/components/tasks/TaskList.tsx:83 | The button reads "Creating..." while pending, and otherwise "Assign to " followed by the other user's name or "other" |
| TaskList.AfterCreateResets | src/components/tasks/TaskList.tsx:43-92 | After a finished create the Assign button is disabled, Enter sends nothing, and "No pending tasks" is back exactly when nothing is pending |
| TaskList.ShowsEmptyMessage | src/components/tasks/TaskList.tsx:91-92 | "No pending tasks" shows exactly when the form is closed and no task has status "pending" |
| TaskList.CompletedView | src/components/tasks/TaskList.tsx:123-133 | The completed section shows exactly when something is completed. It counts all of them and lists the first five titles in order |
| DoctorContacts.Subtitle | src/components/contacts/DoctorContacts.tsx:96-116 | An emergency contact reads "phone — Emergency". A routine one reads the phone, followed by " — specialty" exactly when the specialty is non-empty |
| DoctorContacts.EntryOf | src/components/contacts/DoctorContacts.tsx:89-97 | An entry links to "tel:" + phone, is titled by the name, and is styled as emergency exactly for emergency contacts |
| DoctorContacts.Listing | src/components/contacts/DoctorContacts.tsx:84-122 | "No contacts added yet" shows exactly for an empty list. Otherwise there is one entry per contact, each rendered from a contact in the list |
| DoctorContacts.ListingIsPermutation | src/components/contacts/DoctorContacts.tsx:31-122 | The listed contacts are the emergency ones in input order followed by the routine ones in input order, and every contact is listed exactly once |
| DoctorContacts.GroupsKeepInputOrder | src/components/contacts/DoctorContacts.tsx:88-122 | Listing a run of contacts followed by another shows the first run's emergency contacts before the second's, and likewise for the routine ones |
| DoctorContacts.EmergencyFirst | src/components/contacts/DoctorContacts.tsx:88-122 | The entries with emergency styling are exactly the first ones, so every emergency contact precedes every routine one |
| DoctorContacts.HandleAdd | src/components/contacts/DoctorContacts.tsx:34-37 | Nothing is sent unless the name and the phone are non-blank. The request carries all three texts trimmed and the emergency flag |
| DoctorContacts.EnabledIffSends | src/components/contacts/DoctorContacts.tsx:75 | When not pending, the Add Contact button is enabled exactly when pressing it sends a request |
| DoctorContacts.AddedFieldsAreClean | src/components/contacts/DoctorContacts.tsx:35-37 | The name and phone sent are non-blank, and all the texts sent have nothing left to trim |
| QuickActivity.CategoryValuesDistinct | src/components/activities/QuickActivity.tsx:9-15 | The five category keys are distinct |
| QuickActivity.EmojiFor | src/components/activities/QuickActivity.tsx:94-97 | A known category shows its own emoji and an unknown one shows the memo emoji. The emoji is never empty |
| QuickActivity.Recent | src/components/activities/QuickActivity.tsx:91-107 | "No activities logged today" shows exactly for an empty list. Otherwise at most five rows are shown: the first five in order, each with its category's emoji |
| QuickActivity.HandleSubmit | src/components/activities/QuickActivity.tsx:27-30 | A blank description sends nothing. Otherwise the request is the category, the trimmed description and "" |
| QuickActivity.Step | src/components/activities/QuickActivity.tsx:27-61 | A chip sets its category key. A finished submit clears the text and closes the form but keeps the category. Toggling and typing keep the category |
| QuickActivity.CategoryStaysKnown | src/components/activities/QuickActivity.tsx:58-61 | From a known category, every run of form events leaves a known category |
| QuickActivity.DefaultIsKnown | src/components/activities/QuickActivity.tsx:9-23 | The default "wound_care" is one of the five categories, and it shows the bandage emoji |
| SyncStatus.Initial | src/hooks/useSyncStatus.ts:10-20 | The first state has no timer and shows "synced" when online, "offline" when not |
| SyncStatus.Settle | src/hooks/useSyncStatus.ts:14-20 | The effect forces "offline" while disconnected and turns "offline" into "synced" when connected. It leaves any other status, and the timer, alone |
| SyncStatus.Step | src/hooks/useSyncStatus.ts:22-47 | While offline, setSyncing changes nothing beyond what the effect forces. setSyncing(true) shows "syncing" and arms a fresh 2000 ms timer, and setSyncing(false) shows "synced" and clears the timer. Only the pending timer's expiry acts, clearing the timer and showing "synced" while connected. A connectivity change keeps the timer: going offline shows "offline", and being online turns "offline" into "synced" and keeps any other status |
| SyncStatus.HealthCheckKeepsState | src/hooks/useOnlineStatus.ts:30-37 | The 30-second health check reporting "online" while already online changes nothing, so a pending "syncing" is kept |
| SyncStatus.StepKeepsGood | src/hooks/useSyncStatus.ts:14-47 | Every event keeps the invariants: "offline" exactly while disconnected, a pending timer whenever "syncing", and 2000 ms timers with fresh ids |
| SyncStatus.RunKeepsGood | src/hooks/useSyncStatus.ts:14-47 | Those invariants hold after any sequence of events |
| SyncStatus.InitialIsGood | src/hooks/useSyncStatus.ts:10-20 | The first state satisfies them |
| SyncStatus.SyncingResolves | src/hooks/useSyncStatus.ts:33-36 | When "syncing", the pending timer's expiry brings back "synced" |
| SyncStatus.RestartCancelsOldTimer | src/hooks/useSyncStatus.ts:27-38 | After a new setSyncing(true), the earlier timer's expiry changes nothing and the state stays "syncing" |
| SyncStatus.OfflineIgnoresSetSyncing | src/hooks/useSyncStatus.ts:23 | Any sequence of setSyncing calls while offline leaves the state exactly as it was |
| SyncStatus.ReconnectShowsSynced | src/hooks/useSyncStatus.ts:17-18 | Reconnecting always shows "synced", even if a sync was under way when the connection dropped |

## Left out

- The server actions that only receive requests: `logMedication`, `undoMedicationLog`, `createMedication`, `submitCheckin`, `createTask`, `completeTask` and `logCareActivity`. Their storage semantics, including any insert-or-update by slot, are not part of this model, so the model stops at the request each component sends.
- Weekday expansion of schedules: the daily view never filters by weekday, so neither does the model.
- The browser connectivity and realtime hooks (`useOnlineStatus`, `useSupabaseRealtime`). They are I/O, and their output enters the model as the `online` flag.
- Presentation-only files (navigation, header, shell, banners, layout, manifest) and the hard-coded identity configuration, because they hold no decision logic.
- React rendering, transitions, effect scheduling, the one-minute re-render interval and real timers. Events are applied one at a time, each followed by the hook's effect. A transition's `isPending` enters as a plain boolean (the medication cards' `pending`), and timer expiry is an explicit event.
- CountdownTimer.Evaluate: the last dose and "now" enter as integer milliseconds. Date parsing is not modelled, and neither is the falsy empty string for `lastTakenAt`. Fractional hour intervals are supported only through a millisecond interval.
- CountdownTimer.ProgressOf: percentages are exact reals rather than IEEE doubles.
- DailySchedule.BarWidth: computed over exact reals rather than doubles.
- TimeSlot.Header: only the stored "HH:MM" shape is read, and any other time gets no label. The source splits on ":", so it also labels shapes such as "8:00" and renders `NaN` for a part that is not a number. A time with no colon at all (such as "8") leaves the minutes undefined, and `minutes.toString()` throws. None of these other shapes is modelled.
- TimeSlot.IsPast: clock readings are parsed pairs, and `Date.getHours()`/`getMinutes()` are the caller's business.
- Ordering.Below: compares Unicode code points, while JavaScript's default sort compares UTF-16 code units. The two agree on every "HH:MM" string and on all text below U+10000.
- AddMedicationForm.SubmitRequest: the minimum interval is carried as the entered text. Its `parseFloat` value is not modelled.
- AddMedicationForm.Step: the dialog's own open/close plumbing and the async completion of a submit are reduced to the Close event.
- FeelingCheckin.LevelOr5: `NaN` (also falsy in JavaScript) is not a modelled level.
- FeelingCheckin.PeriodOf: the hour comes from the caller rather than `new Date()`.
- QuickActivity.Recent: the localised time of day (`toLocaleTimeString`) is not part of a row.
- Form text fields are modelled as whole strings. Keystroke handling and focus are not modelled. The task list's Enter key calls `handleCreate` directly, without the button's pending check; `HandleCreate` is that handler.
- The sync hook's cleanup effect (src/hooks/useSyncStatus.ts:50-56) is not modelled. It depends on the timer id, so it runs on every change of the id as well as at unmount, each time clearing the previous timer. With events applied one at a time, that previous timer has always already been cleared by `setSyncing` or has already fired, so clearing it again changes nothing.

=== FILE: addmedication.dfy ===
/** The add-medication wizard: the form state, its day/time reducers, the
    schedule built on submit, the request sent to `createMedication`, and the
    step navigation. Days are numbers (0 = Sunday); `dayTimes` maps a day to
    its "HH:MM" list. */
module AddMedicationForm {
  import opened Wrappers
  import opened Text
  import opened Ordering

  const DefaultTime: string := "08:00"
  const AddedTime: string := "20:00"
  const AllDays: seq<int> := [0, 1, 2, 3, 4, 5, 6]

  datatype FormData = FormData(
    name: string,
    dosage: string,
    purpose: string,
    takeWithFood: bool,
    isPrn: Option<bool>,
    selectedDays: seq<int>,
    dayTimes: map<int, seq<string>>,
    minHoursBetween: string)

  const InitialForm: FormData := FormData("", "", "", false, None, [], map[], "")

  /** `dayTimes[day] || []`: an absent day reads as no times. */
  function TimesOf(dayTimes: map<int, seq<string>>, day: int): seq<string> {
    if day in dayTimes then dayTimes[day] else []
  }

  /** Everything but `selectedDays` and `dayTimes` is as before. */
  predicate SameDetails(a: FormData, b: FormData) {
    a.name == b.name && a.dosage == b.dosage && a.purpose == b.purpose
    && a.takeWithFood == b.takeWithFood && a.isPrn == b.isPrn
    && a.minHoursBetween == b.minHoursBetween
  }

  /** `d`'s entry is the same (present with the same list, or absent) in both. */
  predicate SameEntry(a: map<int, seq<string>>, b: map<int, seq<string>>, d: int) {
    (d in a <==> d in b) && (d in a ==> a[d] == b[d])
  }

  /** `handleToggleDay`: flips `day`'s membership. A newly selected day keeps
      the times it had or starts with "08:00"; a deselected day loses its
      times. No other day is touched. */
  function ToggleDay(f: FormData, day: int): (r: FormData)
    ensures SameDetails(f, r)
    ensures day in r.selectedDays <==> day !in f.selectedDays
    ensures forall d :: d != day ==> (d in r.selectedDays <==> d in f.selectedDays)
    ensures forall d :: d != day ==> SameEntry(f.dayTimes, r.dayTimes, d)
    ensures day in r.dayTimes <==> day in r.selectedDays
    ensures day in r.dayTimes ==> r.dayTimes[day] == if day in f.dayTimes then f.dayTimes[day] else [DefaultTime]
  {
    var days := if day in f.selectedDays then Filter(f.selectedDays, (d: int) => d != day)
                else f.selectedDays + [day];
    var withDay := if day in f.dayTimes then f.dayTimes else f.dayTimes[day := [DefaultTime]];
    var times := if day in days then withDay else withDay - {day};
    f.(selectedDays := days, dayTimes := times)
  }

  /** `handleSelectAllDays`: with seven days selected it clears the days and
      every time list; otherwise it selects 0..6, each keeping its times or
      starting with "08:00". */
  function SelectAllDays(f: FormData): (r: FormData)
    ensures SameDetails(f, r)
    ensures |f.selectedDays| == 7 ==> r.selectedDays == [] && r.dayTimes == map[]
    ensures |f.selectedDays| != 7 ==>
              && r.selectedDays == AllDays
              && (forall d :: d in r.dayTimes <==> 0 <= d < 7)
              && (forall d :: 0 <= d < 7 ==>
                    r.dayTimes[d] == if d in f.dayTimes then f.dayTimes[d] else [DefaultTime])
  {
    if |f.selectedDays| == 7 then f.(selectedDays := [], dayTimes := map[])
    else
      var times := map d | 0 <= d < 7 :: if d in f.dayTimes then f.dayTimes[d] else [DefaultTime];
      f.(selectedDays := AllDays, dayTimes := times)
  }

  /** `handleAddTime`: appends "20:00", an absent list counting as ["08:00"]. */
  function AddTime(f: FormData, day: int): (r: FormData)
    ensures SameDetails(f, r) && r.selectedDays == f.selectedDays
    ensures day in r.dayTimes
    ensures r.dayTimes[day] == (if day in f.dayTimes then f.dayTimes[day] else [DefaultTime]) + [AddedTime]
    ensures forall d :: d != day ==> SameEntry(f.dayTimes, r.dayTimes, d)
  {
    var current := if day in f.dayTimes then f.dayTimes[day] else [DefaultTime];
    f.(dayTimes := f.dayTimes[day := current + [AddedTime]])
  }

  /** `filter((_, i) => i !== index)`: drops the element at `index`, if any. */
  function RemoveAt(s: seq<string>, index: int): (r: seq<string>)
    ensures 0 <= index < |s| ==> |r| == |s| - 1
    ensures 0 <= index < |s| ==> forall k :: 0 <= k < |r| ==> r[k] == s[if k < index then k else k + 1]
    ensures !(0 <= index < |s|) ==> r == s
  {
    if 0 <= index < |s| then s[..index] + s[index + 1..] else s
  }

  /** `map((t, i) => i === index ? time : t)`: replaces the element at
      `index`, if any, keeping the length. */
  function ReplaceAt(s: seq<string>, index: int, time: string): (r: seq<string>)
    ensures |r| == |s|
    ensures forall k :: 0 <= k < |r| ==> r[k] == if k == index then time else s[k]
  {
    if 0 <= index < |s| then s[index := time] else s
  }

  /** `handleRemoveTime`. The day's list is written back even when it was
      absent (as the empty list). */
  function RemoveTime(f: FormData, day: int, index: int): (r: FormData)
    ensures SameDetails(f, r) && r.selectedDays == f.selectedDays
    ensures day in r.dayTimes && r.dayTimes[day] == RemoveAt(TimesOf(f.dayTimes, day), index)
    ensures forall d :: d != day ==> SameEntry(f.dayTimes, r.dayTimes, d)
  {
    f.(dayTimes := f.dayTimes[day := RemoveAt(TimesOf(f.dayTimes, day), index)])
  }

  /** `handleChangeTime`. */
  function ChangeTime(f: FormData, day: int, index: int, time: string): (r: FormData)
    ensures SameDetails(f, r) && r.selectedDays == f.selectedDays
    ensures day in r.dayTimes && r.dayTimes[day] == ReplaceAt(TimesOf(f.dayTimes, day), index, time)
    ensures forall d :: d != day ==> SameEntry(f.dayTimes, r.dayTimes, d)
  {
    f.(dayTimes := f.dayTimes[day := ReplaceAt(TimesOf(f.dayTimes, day), index, time)])
  }

  datatype ScheduleEntry = ScheduleEntry(day: int, time: string)

  function DayEntries(day: int, times: seq<string>): (r: seq<ScheduleEntry>)
    ensures |r| == |times|
    ensures forall k :: 0 <= k < |r| ==> r[k] == ScheduleEntry(day, times[k])
  {
    seq(|times|, k requires 0 <= k < |times| => ScheduleEntry(day, times[k]))
  }

  /** The total number of times over the listed days. */
  function CountTimes(days: seq<int>, dayTimes: map<int, seq<string>>): nat {
    if |days| == 0 then 0
    else CountTimes(days[..|days| - 1], dayTimes) + |TimesOf(dayTimes, days[|days| - 1])|
  }

  /** One entry per listed day and each of that day's times, day by day. */
  function Entries(days: seq<int>, dayTimes: map<int, seq<string>>): (r: seq<ScheduleEntry>)
    ensures |r| == CountTimes(days, dayTimes)
    ensures forall e :: e in r <==> e.day in days && e.time in TimesOf(dayTimes, e.day)
  {
    if |days| == 0 then []
    else
      var n := |days| - 1;
      var prev := Entries(days[..n], dayTimes);
      var last := DayEntries(days[n], TimesOf(dayTimes, days[n]));
      assert forall d :: d in days <==> d in days[..n] || d == days[n] by {
        assert days == days[..n] + [days[n]];
      }
      assert forall e :: e in last <==> e.day == days[n] && e.time in TimesOf(dayTimes, days[n]) by {
        forall e: ScheduleEntry | e.day == days[n] && e.time in TimesOf(dayTimes, days[n]) ensures e in last {
          var k :| 0 <= k < |TimesOf(dayTimes, days[n])| && TimesOf(dayTimes, days[n])[k] == e.time;
          assert last[k] == e;
        }
      }
      prev + last
  }

  /** The entries of one selected day. */
  function DayBlock(dayTimes: map<int, seq<string>>): int -> seq<ScheduleEntry> {
    d => DayEntries(d, TimesOf(dayTimes, d))
  }

  /** `Entries` is the nested `forEach`: each selected day's block, day by
      day. */
  lemma {:induction false} EntriesAreFlatMap(days: seq<int>, dayTimes: map<int, seq<string>>)
    ensures Entries(days, dayTimes) == FlatMap(days, DayBlock(dayTimes))
  {
    if |days| > 0 {
      EntriesAreFlatMap(days[..|days| - 1], dayTimes);
    }
  }

  /** The schedule of two runs of selected days is the first run's entries
      followed by the second's: entries keep day-selection order. */
  lemma EntriesAppend(a: seq<int>, b: seq<int>, dayTimes: map<int, seq<string>>)
    ensures Entries(a + b, dayTimes) == Entries(a, dayTimes) + Entries(b, dayTimes)
  {
    EntriesAreFlatMap(a + b, dayTimes);
    EntriesAreFlatMap(a, dayTimes);
    EntriesAreFlatMap(b, dayTimes);
    FlatMapAppend(a, b, DayBlock(dayTimes));
  }

  /** A single selected day contributes its times, in order. */
  lemma EntriesSingle(d: int, dayTimes: map<int, seq<string>>)
    ensures Entries([d], dayTimes) == DayEntries(d, TimesOf(dayTimes, d))
  {
    assert [d][..0] == [];
  }

  /** The times listed for `day`, in order. */
  function TimesFor(entries: seq<ScheduleEntry>, day: int): seq<string> {
    if |entries| == 0 then []
    else TimesFor(entries[..|entries| - 1], day)
         + (if entries[|entries| - 1].day == day then [entries[|entries| - 1].time] else [])
  }

  lemma {:induction false} TimesForAppend(a: seq<ScheduleEntry>, b: seq<ScheduleEntry>, day: int)
    ensures TimesFor(a + b, day) == TimesFor(a, day) + TimesFor(b, day)
    decreases |b|
  {
    if |b| > 0 {
      var n := |b| - 1;
      assert (a + b)[..|a + b| - 1] == a + b[..n];
      assert (a + b)[|a + b| - 1] == b[n];
      TimesForAppend(a, b[..n], day);
    } else {
      assert a + b == a;
    }
  }

  lemma {:induction false} TimesForDayEntries(d: int, times: seq<string>, day: int)
    ensures TimesFor(DayEntries(d, times), day) == if d == day then times else []
    decreases |times|
  {
    if |times| > 0 {
      var n := |times| - 1;
      var es := DayEntries(d, times);
      var init := DayEntries(d, times[..n]);
      assert es[..n] == init;
      assert es[n] == ScheduleEntry(d, times[n]);
      TimesForDayEntries(d, times[..n], day);
      assert TimesFor(es, day) == TimesFor(init, day) + (if d == day then [times[n]] else []);
      if d == day {
        assert times == times[..n] + [times[n]];
      }
    }
  }

  predicate Distinct(days: seq<int>) {
    forall i, j :: 0 <= i < j < |days| ==> days[i] != days[j]
  }

  /** With each day selected once, the schedule lists each selected day's
      times exactly, in their order, and nothing for other days. */
  lemma EntriesPerDay(days: seq<int>, dayTimes: map<int, seq<string>>, day: int)
    requires Distinct(days)
    ensures TimesFor(Entries(days, dayTimes), day) == if day in days then TimesOf(dayTimes, day) else []
  {
    EntriesAreFlatMap(days, dayTimes);
    BlocksPerDay(days, dayTimes, day);
  }

  lemma {:induction false} BlocksPerDay(days: seq<int>, dayTimes: map<int, seq<string>>, day: int)
    requires Distinct(days)
    ensures TimesFor(FlatMap(days, DayBlock(dayTimes)), day) == if day in days then TimesOf(dayTimes, day) else []
  {
    if |days| > 0 {
      var n := |days| - 1;
      var prefix, last := days[..n], days[n];
      DistinctPrefix(days);
      BlocksPerDay(prefix, dayTimes, day);
      var before := FlatMap(prefix, DayBlock(dayTimes));
      assert FlatMap(days, DayBlock(dayTimes)) == before + DayEntries(last, TimesOf(dayTimes, last));
      TimesForBlock(before, last, TimesOf(dayTimes, last), day);
      assert day in days <==> day in prefix || day == last by {
        assert days == prefix + [last];
      }
    }
  }

  /** Dropping the last of distinct days leaves distinct days without it. */
  lemma DistinctPrefix(days: seq<int>)
    requires Distinct(days) && |days| > 0
    ensures Distinct(days[..|days| - 1]) && days[|days| - 1] !in days[..|days| - 1]
  {
    var prefix := days[..|days| - 1];
    forall i, j | 0 <= i < j < |prefix| ensures prefix[i] != prefix[j] {
      assert prefix[i] == days[i] && prefix[j] == days[j];
    }
    forall i | 0 <= i < |prefix| ensures prefix[i] != days[|days| - 1] {
      assert prefix[i] == days[i];
    }
  }

  /** Appending one day's block adds that day's times for it, and nothing
      for any other day. */
  lemma TimesForBlock(before: seq<ScheduleEntry>, d: int, times: seq<string>, day: int)
    ensures TimesFor(before + DayEntries(d, times), day)
            == TimesFor(before, day) + (if d == day then times else [])
  {
    TimesForAppend(before, DayEntries(d, times), day);
    TimesForDayEntries(d, times, day);
  }

  /** Entries whose days never decrease. */
  predicate DayOrdered(r: seq<ScheduleEntry>) {
    forall i, j :: 0 <= i < j < |r| ==> r[i].day <= r[j].day
  }

  /** Walking the days in ascending order yields the entries in ascending
      day order. */
  lemma {:induction false} EntriesByDay(days: seq<int>, dayTimes: map<int, seq<string>>)
    requires Ascending(days)
    ensures DayOrdered(Entries(days, dayTimes))
  {
    if |days| > 0 {
      var n := |days| - 1;
      var init, last := days[..n], days[n];
      assert days == init + [last];
      assert Ascending(init);
      EntriesByDay(init, dayTimes);
      EntriesAppend(init, [last], dayTimes);
      EntriesSingle(last, dayTimes);
      var before, block := Entries(init, dayTimes), DayEntries(last, TimesOf(dayTimes, last));
      forall i | 0 <= i < |before| ensures before[i].day <= last {
        assert before[i] in before;
        var k :| 0 <= k < |init| && init[k] == before[i].day;
        assert days[k] == init[k];
      }
      ConcatDayOrdered(before, block, last);
    }
  }

  lemma ConcatDayOrdered(before: seq<ScheduleEntry>, block: seq<ScheduleEntry>, last: int)
    requires DayOrdered(before)
    requires forall i :: 0 <= i < |before| ==> before[i].day <= last
    requires forall k :: 0 <= k < |block| ==> block[k].day == last
    ensures DayOrdered(before + block)
  {
  }

  /** The schedule `handleSubmit` builds: nothing for an as-needed
      medication, otherwise the entries in the order of the form's day
      list. A form whose type is still unset (`null`) counts as scheduled. */
  function BuildSchedule(f: FormData): (r: seq<ScheduleEntry>)
    ensures f.isPrn == Some(true) ==> r == []
    ensures f.isPrn != Some(true) ==> |r| == CountTimes(f.selectedDays, f.dayTimes)
    ensures f.isPrn != Some(true) ==>
              forall e :: e in r <==> e.day in f.selectedDays && e.time in TimesOf(f.dayTimes, e.day)
  {
    if f.isPrn == Some(true) then [] else Entries(f.selectedDays, f.dayTimes)
  }

  /** The argument of `createMedication`. */
  datatype CreateRequest = CreateRequest(
    name: string,
    dosage: Option<string>,
    purpose: Option<string>,
    isPrn: bool,
    schedule: seq<ScheduleEntry>,
    minHoursBetween: Option<string>,
    takeWithFood: bool,
    notes: Option<string>)

  /** `x || null` on a text field: the empty string is sent as null. */
  function NullIfEmpty(s: string): (r: Option<string>)
    ensures r.None? <==> s == ""
    ensures r.Some? ==> r.value == s
  {
    if s == "" then None else Some(s)
  }

  /** `handleSubmit`'s request. The minimum interval is passed on only for an
      as-needed medication with a non-empty entry; the number it parses to is
      not modelled, so the text is carried. */
  function SubmitRequest(f: FormData): (req: CreateRequest)
    ensures req.isPrn <==> f.isPrn == Some(true)
    ensures req.name == f.name && req.takeWithFood == f.takeWithFood && req.notes.None?
    ensures req.dosage.None? <==> f.dosage == ""
    ensures req.purpose.None? <==> f.purpose == ""
    ensures req.minHoursBetween.Some? <==> f.isPrn == Some(true) && f.minHoursBetween != ""
    ensures req.isPrn ==> req.schedule == []
  {
    CreateRequest(
      f.name,
      NullIfEmpty(f.dosage),
      NullIfEmpty(f.purpose),
      f.isPrn == Some(true),
      BuildSchedule(f),
      if f.isPrn == Some(true) && f.minHoursBetween != "" then Some(f.minHoursBetween) else None,
      f.takeWithFood,
      None)
  }

  /** `canSubmitScheduled`: a scheduled medication needs a selected day. */
  predicate CanSubmitScheduled(f: FormData) {
    |f.selectedDays| > 0
  }

  /** The Next button of step 1 needs a name that is not blank. */
  predicate CanGoNext(f: FormData) {
    !IsBlank(f.name)
  }

  /** The wizard: a step (1 name, 2 type, 3 settings) and the form. */
  datatype Wizard = Wizard(step: int, form: FormData, pending: bool)

  const InitialWizard: Wizard := Wizard(1, InitialForm, false)

  datatype WizardEvent =
    | Next
    | ChooseScheduled
    | ChoosePrn
    | Back
    | SubmitPressed
    | Close

  /** The request a submit sends, when the pressed button is enabled. */
  function SubmitOutcome(w: Wizard): (req: Option<CreateRequest>)
    ensures req.Some? ==> w.step == 3 && !w.pending
    ensures req.Some? && w.form.isPrn != Some(true) ==> |w.form.selectedDays| > 0
    ensures w.step == 3 && !w.pending && w.form.isPrn == Some(true) ==> req.Some?
    ensures w.step == 3 && !w.pending && w.form.isPrn != Some(true) ==> (req.Some? <==> |w.form.selectedDays| > 0)
    ensures req.Some? ==> req.value == SubmitRequest(w.form)
  {
    if w.step != 3 || w.pending then None
    else if w.form.isPrn == Some(true) then Some(SubmitRequest(w.form))
    else if CanSubmitScheduled(w.form) then Some(SubmitRequest(w.form))
    else None
  }

  /** One wizard transition. Back goes from 3 to 2 and otherwise to 1; Close
      (and the end of a submit) resets to the initial state. Navigation never
      touches the form, choosing a type changes only `isPrn`, and a submit
      changes only the pending flag. */
  function Step(w: Wizard, e: WizardEvent): (r: Wizard)
    ensures e == Back && w.step == 3 ==> r.step == 2
    ensures e == Back && w.step == 2 ==> r.step == 1
    ensures e == Next && w.step == 1 ==> (r.step == 2 <==> CanGoNext(w.form))
    ensures e == Next && w.step == 1 && !CanGoNext(w.form) ==> r == w
    ensures e == Back && w.step <= 1 ==> r == w
    ensures (e == ChooseScheduled || e == ChoosePrn) && w.step == 2 ==>
              r.step == 3 && r.form.isPrn == Some(e == ChoosePrn)
    ensures e == Close ==> r == InitialWizard
    ensures e == SubmitPressed ==> (r.pending <==> w.pending || SubmitOutcome(w).Some?)
    ensures e == Next || e == Back ==> r.form == w.form && r.pending == w.pending
    ensures e == Next && w.step != 1 ==> r == w
    ensures e == ChooseScheduled || e == ChoosePrn ==>
              r.pending == w.pending && r.form == w.form.(isPrn := r.form.isPrn)
    ensures (e == ChooseScheduled || e == ChoosePrn) && w.step != 2 ==> r == w
    ensures e == SubmitPressed ==> r.step == w.step && r.form == w.form
  {
    match e
    case Next => if w.step == 1 && CanGoNext(w.form) then w.(step := 2) else w
    case ChooseScheduled => if w.step == 2 then w.(step := 3, form := w.form.(isPrn := Some(false))) else w
    case ChoosePrn => if w.step == 2 then w.(step := 3, form := w.form.(isPrn := Some(true))) else w
    case Back => if w.step > 1 then w.(step := if w.step == 3 then 2 else 1) else w
    case SubmitPressed => if SubmitOutcome(w).Some? then w.(pending := true) else w
    case Close => InitialWizard
  }

  /** What the wizard keeps true: the step is 1, 2 or 3, and on step 3 the
      medication type has been chosen. */
  predicate WizardGood(w: Wizard) {
    1 <= w.step <= 3 && (w.step == 3 ==> w.form.isPrn.Some?)
  }

  /** Every transition keeps the wizard good. */
  lemma StepKeepsGood(w: Wizard, e: WizardEvent)
    requires WizardGood(w)
    ensures WizardGood(Step(w, e))
  {
  }

  /** Any run of events from the initial wizard keeps it good, so step 3 is
      always reached with a chosen type. */
  lemma {:induction false} RunKeepsGood(w: Wizard, events: seq<WizardEvent>)
    requires WizardGood(w)
    ensures WizardGood(Run(w, events))
    decreases |events|
  {
    if |events| > 0 {
      StepKeepsGood(w, events[0]);
      RunKeepsGood(Step(w, events[0]), events[1..]);
    }
  }

  /** The wizard after a run of events. */
  function Run(w: Wizard, events: seq<WizardEvent>): Wizard
    decreases |events|
  {
    if |events| == 0 then w else Run(Step(w, events[0]), events[1..])
  }

  /** The initial wizard is good. */
  lemma InitialWizardIsGood()
    ensures WizardGood(InitialWizard)
  {
  }

  /** The day/time state the picker keeps consistent: each selected day once,
      days in 0..6, and a time list exactly for the selected days. */
  ghost predicate Consistent(f: FormData) {
    && Distinct(f.selectedDays)
    && (forall i :: 0 <= i < |f.selectedDays| ==> 0 <= f.selectedDays[i] < 7)
    && f.dayTimes.Keys == DaySet(f.selectedDays)
  }

  /** Toggling a day button (0..6) keeps the form consistent. */
  lemma ToggleKeepsConsistent(f: FormData, day: int)
    requires Consistent(f) && 0 <= day < 7
    ensures Consistent(ToggleDay(f, day))
  {
    var r := ToggleDay(f, day);
    if day in f.selectedDays {
      FilterDistinct(f.selectedDays, (d: int) => d != day);
    } else {
      assert r.selectedDays == f.selectedDays + [day];
    }
    assert forall d :: d in DaySet(r.selectedDays) <==> d in r.selectedDays;
    assert forall d :: d in DaySet(f.selectedDays) <==> d in f.selectedDays;
  }

  /** Select-all keeps the form consistent. */
  lemma SelectAllKeepsConsistent(f: FormData)
    requires Consistent(f)
    ensures Consistent(SelectAllDays(f))
  {
    var s := SelectAllDays(f);
    if |f.selectedDays| != 7 {
      assert s.dayTimes.Keys == DaySet(AllDays) by {
        forall d | 0 <= d < 7 ensures d in DaySet(AllDays) {
          assert AllDays[d] == d;
        }
      }
    }
  }

  /** The time edits the picker offers, which are only for selected days,
      keep the form consistent. */
  lemma TimeEditsKeepConsistent(f: FormData, day: int, index: int, time: string)
    requires Consistent(f) && day in f.selectedDays
    ensures Consistent(AddTime(f, day))
    ensures Consistent(RemoveTime(f, day, index))
    ensures Consistent(ChangeTime(f, day, index, time))
  {
    assert day in DaySet(f.selectedDays);
  }

  lemma {:induction false} FilterDistinct(s: seq<int>, p: int -> bool)
    requires Distinct(s)
    ensures Distinct(Filter(s, p))
  {
    if |s| > 0 {
      FilterDistinct(s[1..], p);
      var rest := Filter(s[1..], p);
      assert forall k :: 0 <= k < |rest| ==> rest[k] in s[1..];
      assert s[0] !in s[1..];
    }
  }

  /** The days of a selection, as a set. */
  function DaySet(days: seq<int>): set<int> {
    set i | 0 <= i < |days| :: days[i]
  }

  /** In a consistent form "seven days selected" means "every day selected",
      which is what the Clear-all label and select-all rely on. */
  lemma {:induction false} SevenMeansEveryDay(f: FormData)
    requires Consistent(f)
    ensures |f.selectedDays| == 7 <==> forall d :: 0 <= d < 7 ==> d in f.selectedDays
  {
    var days := f.selectedDays;
    var week := DaySet(AllDays);
    WeekIsRange();
    DistinctCard(days);
    assert DaySet(days) <= week;
    if |days| == 7 {
      SubsetOfSameSize(DaySet(days), week);
      forall d | 0 <= d < 7 ensures d in days {
        assert d in DaySet(days);
      }
    }
    if forall d :: 0 <= d < 7 ==> d in days {
      assert week <= DaySet(days) by {
        forall d | d in week ensures d in DaySet(days) {
          assert d in days;
          var i :| 0 <= i < |days| && days[i] == d;
        }
      }
      assert DaySet(days) == week;
    }
  }

  /** The week's day numbers are 0 to 6, seven of them. */
  lemma WeekIsRange()
    ensures forall d :: d in DaySet(AllDays) <==> 0 <= d < 7
    ensures |DaySet(AllDays)| == 7
  {
    forall d | 0 <= d < 7 ensures d in DaySet(AllDays) {
      assert AllDays[d] == d;
    }
    DistinctCard(AllDays);
  }

  /** A subset as large as its superset is the whole superset. */
  lemma SubsetOfSameSize(a: set<int>, b: set<int>)
    requires a <= b && |a| == |b|
    ensures a == b
  {
    assert |b - a| == |b| - |a|;
  }

  lemma {:induction false} DistinctCard(days: seq<int>)
    requires Distinct(days)
    ensures |DaySet(days)| == |days|
  {
    if |days| > 0 {
      var n := |days| - 1;
      DistinctCard(days[..n]);
      assert DaySet(days) == DaySet(days[..n]) + {days[n]};
      assert days[n] !in DaySet(days[..n]);
    }
  }
}

=== FILE: countdown.dfy ===
/** The as-needed (PRN) dose gate: given when the last dose was taken, the
    minimum interval between doses and the current instant, decides whether
    the next dose is ready or how long is left to wait. Instants and the
    interval are integer milliseconds: an hour is 3_600_000 of them and a
    minute 60_000, written out as literals so that the arithmetic stays
    linear for the solver. */
module CountdownTimer {
  import opened Wrappers
  import opened Text

  /** `minHoursBetween * 60 * 60 * 1000` for a whole number of hours. */
  function HoursToMs(hours: nat): (ms: nat)
    ensures ms / 3_600_000 == hours && ms % 3_600_000 == 0
  {
    hours * 3_600_000
  }

  /** The width of the progress bar in percent. A zero interval divides a
      negative elapsed time by zero, which JavaScript evaluates to -Infinity. */
  datatype Progress = Percent(value: real) | NegativeInfinity

  datatype Gate =
    | Ready
    | CoolingDown(remaining: int, hours: nat, minutes: nat, display: string, progress: Progress)

  /** Whole hours left, and the leftover rounded UP to whole minutes, so that
      the pair never understates the wait and overstates it by less than a
      minute. */
  function SplitRemaining(remaining: int): (hm: (nat, nat))
    requires remaining > 0
    ensures hm.0 * 3_600_000 <= remaining < (hm.0 + 1) * 3_600_000
    ensures remaining <= hm.0 * 3_600_000 + hm.1 * 60_000 < remaining + 60_000
    ensures hm.1 <= 60
    ensures hm.0 == 0 ==> hm.1 >= 1
  {
    var h := remaining / 3_600_000;
    var rest := remaining % 3_600_000;
    var m := (rest + 59_999) / 60_000;
    (h, m)
  }

  /** `hours > 0 ? `${hours}h ${minutes}m` : `${minutes}m``. */
  function Display(hours: nat, minutes: nat): (s: string)
    ensures 'h' in s <==> hours > 0
    ensures |s| >= 2 && s[|s| - 1] == 'm'
  {
    var hs := NatToString(hours);
    var ms := NatToString(minutes);
    assert 'h' !in hs && 'h' !in ms by {
      assert forall k :: 0 <= k < |hs| ==> IsDigit(hs[k]);
      assert forall k :: 0 <= k < |ms| ==> IsDigit(ms[k]);
    }
    if hours > 0 then hs + "h " + ms + "m" else ms + "m"
  }

  /** Reads a countdown display back into hours and minutes. */
  function ParseDisplay(s: string): Option<(nat, nat)>
  {
    if |s| == 0 || s[|s| - 1] != 'm' then None
    else
      var body := s[..|s| - 1];
      match IndexOf(body, 'h')
      case None =>
        (match ParseNat(body)
         case Some(m) => Some((0, m))
         case None => None)
      case Some(i) =>
        if i + 2 <= |body| && body[i + 1] == ' ' then
          (match (ParseNat(body[..i]), ParseNat(body[i + 2..]))
           case (Some(h), Some(m)) => Some((h, m))
           case _ => None)
        else None
  }

  /** In "<hs>h <ms>" with digit strings on both sides, the first 'h' is
      the separator. */
  lemma SplitAtH(hs: string, ms: string)
    requires |hs| > 0 && forall k :: 0 <= k < |hs| ==> IsDigit(hs[k])
    requires forall k :: 0 <= k < |ms| ==> IsDigit(ms[k])
    ensures var body := hs + "h " + ms;
            && IndexOf(body, 'h') == Some(|hs|) && |hs| + 2 <= |body| && body[|hs| + 1] == ' '
            && body[..|hs|] == hs && body[|hs| + 2..] == ms
  {
    var body := hs + "h " + ms;
    assert 'h' !in hs;
    assert body[|hs|] == 'h';
    assert body[..|hs|] == hs;
  }

  /** The display is unambiguous: it can be read back into exactly the hours
      and minutes it shows. */
  lemma DisplayRoundTrip(hours: nat, minutes: nat)
    ensures ParseDisplay(Display(hours, minutes)) == Some((hours, minutes))
  {
    var s := Display(hours, minutes);
    var hs := NatToString(hours);
    var ms := NatToString(minutes);
    ParseNatToString(hours);
    ParseNatToString(minutes);
    if hours > 0 {
      SplitAtH(hs, ms);
      assert s[..|s| - 1] == hs + "h " + ms;
    } else {
      assert 'h' !in ms;
      assert s[..|s| - 1] == ms;
    }
  }

  /** The bar width `Math.min((elapsed / totalMs) * 100, 100)`. */
  function ProgressOf(intervalMs: int, remaining: int): (p: Progress)
    requires remaining > 0
    ensures p.Percent? <==> intervalMs != 0
    ensures p.Percent? ==> p.value <= 100.0
    ensures intervalMs > 0 && remaining <= intervalMs ==> p.Percent? && 0.0 <= p.value < 100.0
  {
    if intervalMs == 0 then NegativeInfinity
    else
      var elapsed := intervalMs - remaining;
      var ratio := (elapsed as real / intervalMs as real) * 100.0;
      assert intervalMs > 0 && remaining <= intervalMs ==> 0.0 <= ratio < 100.0 by {
        if intervalMs > 0 && remaining <= intervalMs {
          assert 0 <= elapsed < intervalMs;
          assert elapsed as real / intervalMs as real < 1.0;
        }
      }
      Percent(if ratio < 100.0 then ratio else 100.0)
  }

  /** The countdown shown for an as-needed medication. */
  function Evaluate(lastTakenAt: Option<int>, intervalMs: int, now: int): (g: Gate)
    ensures lastTakenAt.None? ==> g.Ready?
    ensures g.Ready? <==> lastTakenAt.None? || now >= lastTakenAt.value + intervalMs
    ensures g.CoolingDown? ==>
      && g.remaining == lastTakenAt.value + intervalMs - now
      && g.hours * 3_600_000 <= g.remaining < (g.hours + 1) * 3_600_000
      && g.remaining <= g.hours * 3_600_000 + g.minutes * 60_000 < g.remaining + 60_000
      && g.minutes <= 60
      && (g.hours == 0 ==> g.minutes >= 1)
      && g.display == Display(g.hours, g.minutes)
      && g.progress == ProgressOf(intervalMs, g.remaining)
      && ('h' in g.display <==> g.hours > 0)
      && ParseDisplay(g.display) == Some((g.hours, g.minutes))
      && (g.progress.Percent? ==> g.progress.value <= 100.0)
      && (intervalMs > 0 && now >= lastTakenAt.value ==>
            g.progress.Percent? && 0.0 <= g.progress.value < 100.0)
  {
    match lastTakenAt
    case None => Ready
    case Some(lastTaken) =>
      var remaining := lastTaken + intervalMs - now;
      if remaining <= 0 then Ready
      else
        var hm := SplitRemaining(remaining);
        DisplayRoundTrip(hm.0, hm.1);
        CoolingDown(remaining, hm.0, hm.1, Display(hm.0, hm.1), ProgressOf(intervalMs, remaining))
  }

  /** Right after a dose with a whole-hour interval of `h` hours the
      countdown shows the full interval: "<h>h 0m" and an empty bar. A zero
      interval is Ready at once. */
  lemma JustTakenShowsWholeInterval(lastTaken: int, h: nat)
    ensures h == 0 ==> Evaluate(Some(lastTaken), HoursToMs(h), lastTaken).Ready?
    ensures h > 0 ==> var g := Evaluate(Some(lastTaken), HoursToMs(h), lastTaken);
                      && g.CoolingDown? && g.hours == h && g.minutes == 0
                      && g.display == NatToString(h) + "h " + NatToString(0) + "m"
                      && g.progress == Percent(0.0)
  {
    var r := HoursToMs(h);
    assert r == h * 3_600_000;
    if h > 0 {
      var g := Evaluate(Some(lastTaken), r, lastTaken);
      WholeHoursBracket(r, h, g.hours, g.minutes);
      ProgressAtStart(r);
    }
  }

  /** The only hours-and-minutes split that brackets `h` whole hours is `h`
      hours and no minutes. */
  lemma WholeHoursBracket(r: int, h: nat, hours: nat, minutes: nat)
    requires r == h * 3_600_000
    requires hours * 3_600_000 <= r < (hours + 1) * 3_600_000
    requires r <= hours * 3_600_000 + minutes * 60_000 < r + 60_000
    ensures hours == h && minutes == 0
  {
  }

  /** Nothing has elapsed yet: the bar is empty. */
  lemma ProgressAtStart(intervalMs: int)
    requires intervalMs > 0
    ensures ProgressOf(intervalMs, intervalMs) == Percent(0.0)
  {
    assert (intervalMs - intervalMs) as real / intervalMs as real == 0.0;
  }

  /** The boundary instant `lastTaken + interval` is already Ready, and one
      millisecond earlier the display reads "1m", never "0m". */
  lemma BoundaryIsReady(lastTaken: int, intervalMs: int)
    ensures Evaluate(Some(lastTaken), intervalMs, lastTaken + intervalMs).Ready?
    ensures var g := Evaluate(Some(lastTaken), intervalMs, lastTaken + intervalMs - 1);
            g.CoolingDown? && g.hours == 0 && g.minutes == 1 && g.display == "1m"
  {
    var hm := SplitRemaining(1);
    assert hm == (0, 1);
    assert Display(0, 1) == "1m" by {
      assert NatToString(1) == [DigitChar(1)];
    }
  }
}

=== FILE: dailyschedule.dfy ===
/** The daily medication view: medications split into scheduled and
    as-needed, the sorted set of slot times drawn from the scheduled ones'
    flat `scheduleTimes` (no weekday filter), the medications due at each
    slot, the progress counters, and each as-needed medication's logs. */
module DailySchedule {
  import opened Wrappers
  import opened Records
  import opened Ordering
  import TimeSlot

  function Scheduled(medications: seq<Medication>): (r: seq<Medication>)
    ensures forall i :: 0 <= i < |r| ==> !r[i].isPrn && r[i] in medications
    ensures forall i :: 0 <= i < |medications| && !medications[i].isPrn ==> medications[i] in r
  {
    Filter(medications, (m: Medication) => !m.isPrn)
  }

  function Prn(medications: seq<Medication>): (r: seq<Medication>)
    ensures forall i :: 0 <= i < |r| ==> r[i].isPrn && r[i] in medications
    ensures forall i :: 0 <= i < |medications| && medications[i].isPrn ==> medications[i] in r
  {
    Filter(medications, (m: Medication) => m.isPrn)
  }

  /** Every medication lands in exactly one of the two groups, as often as
      it occurs in the input. */
  lemma SplitIsPartition(medications: seq<Medication>)
    ensures multiset(Scheduled(medications)) + multiset(Prn(medications)) == multiset(medications)
    ensures |Scheduled(medications)| + |Prn(medications)| == |medications|
  {
    FilterPartition(medications, (m: Medication) => !m.isPrn, (m: Medication) => m.isPrn);
  }

  /** Appending a medication puts it at the end of exactly one group, so
      both groups keep the input order. */
  lemma SplitStep(medications: seq<Medication>, m: Medication)
    ensures Scheduled(medications + [m]) == Scheduled(medications) + (if m.isPrn then [] else [m])
    ensures Prn(medications + [m]) == Prn(medications) + (if m.isPrn then [m] else [])
  {
    FilterAppend(medications, [m], (x: Medication) => !x.isPrn);
    FilterAppend(medications, [m], (x: Medication) => x.isPrn);
    FilterCons(m, [], (x: Medication) => !x.isPrn);
    FilterCons(m, [], (x: Medication) => x.isPrn);
    assert [m] + [] == [m];
  }

  /** `t` is listed by some scheduled (non-PRN) medication. */
  ghost predicate IsScheduledTime(medications: seq<Medication>, t: string)
  {
    exists i :: 0 <= i < |medications| && !medications[i].isPrn && t in medications[i].scheduleTimes
  }

  /** `totalScheduled`: the scheduled medications' list lengths, summed with
      repeats counted. */
  function TotalScheduled(medications: seq<Medication>): (total: nat)
    ensures total == 0 <==> forall i :: 0 <= i < |medications| ==>
                              medications[i].isPrn || |medications[i].scheduleTimes| == 0
  {
    if |medications| == 0 then 0
    else
      var last := medications[|medications| - 1];
      TotalScheduled(medications[..|medications| - 1]) + (if last.isPrn then 0 else |last.scheduleTimes|)
  }

  /** `totalScheduled` adds up per medication: the total of two lists is
      the sum of their totals, so each scheduled medication contributes its
      whole list, repeated times included. */
  lemma {:induction false} TotalScheduledAppend(a: seq<Medication>, b: seq<Medication>)
    ensures TotalScheduled(a + b) == TotalScheduled(a) + TotalScheduled(b)
    decreases |b|
  {
    if |b| > 0 {
      var n := |b| - 1;
      assert (a + b)[..|a + b| - 1] == a + b[..n];
      assert (a + b)[|a + b| - 1] == b[n];
      TotalScheduledAppend(a, b[..n]);
    } else {
      assert a + b == a;
    }
  }

  /** A single scheduled medication contributes the length of its list. */
  lemma TotalScheduledSingle(m: Medication)
    ensures TotalScheduled([m]) == if m.isPrn then 0 else |m.scheduleTimes|
  {
    assert [m][..0] == [];
  }

  function InsertAll(s: seq<string>, times: seq<string>): (r: seq<string>)
    requires StrictlySorted(s)
    ensures StrictlySorted(r)
    ensures forall y :: y in r <==> y in s || y in times
    ensures |r| <= |s| + |times|
    decreases |times|
  {
    if |times| == 0 then s
    else
      var r := InsertAll(InsertUnique(s, times[0]), times[1..]);
      assert forall y :: y in times <==> y == times[0] || y in times[1..] by {
        assert times == [times[0]] + times[1..];
      }
      r
  }

  /** `[...new Set(scheduled.flatMap(m => m.schedule_times))].sort()`:
      ascending, no repeats, exactly the times some scheduled medication
      lists, and never more slots than scheduled entries. */
  function SlotTimes(medications: seq<Medication>): (r: seq<string>)
    ensures StrictlySorted(r)
    ensures forall t :: t in r <==> IsScheduledTime(medications, t)
    ensures |r| <= TotalScheduled(medications)
  {
    if |medications| == 0 then []
    else
      var n := |medications| - 1;
      var init := medications[..n];
      var last := medications[n];
      var prev := SlotTimes(init);
      var r := if last.isPrn then prev else InsertAll(prev, last.scheduleTimes);
      assert forall t :: IsScheduledTime(medications, t) <==>
                IsScheduledTime(init, t) || (!last.isPrn && t in last.scheduleTimes) by {
        forall t ensures IsScheduledTime(medications, t) <==>
                         IsScheduledTime(init, t) || (!last.isPrn && t in last.scheduleTimes) {
          if IsScheduledTime(medications, t) {
            var i :| 0 <= i < |medications| && !medications[i].isPrn && t in medications[i].scheduleTimes;
            if i < n {
              assert init[i] == medications[i];
            }
          }
          if IsScheduledTime(init, t) {
            var i :| 0 <= i < |init| && !init[i].isPrn && t in init[i].scheduleTimes;
            assert medications[i] == init[i];
          }
        }
      }
      r
  }

  /** A slot time appears once in the timeline. */
  lemma SlotTimesDistinct(medications: seq<Medication>, i: int, j: int)
    requires 0 <= i < |SlotTimes(medications)| && 0 <= j < |SlotTimes(medications)|
    requires SlotTimes(medications)[i] == SlotTimes(medications)[j]
    ensures i == j
  {
    var s := SlotTimes(medications);
    if i < j {
      BelowIrreflexive(s[i]);
    } else if j < i {
      BelowIrreflexive(s[j]);
    }
  }

  /** An as-needed medication adds neither slots nor scheduled doses, whatever
      its `scheduleTimes`. */
  lemma PrnContributesNothing(medications: seq<Medication>, prn: Medication)
    requires prn.isPrn
    ensures SlotTimes(medications + [prn]) == SlotTimes(medications)
    ensures TotalScheduled(medications + [prn]) == TotalScheduled(medications)
  {
    assert (medications + [prn])[..|medications|] == medications;
  }

  /** `medsAtTime`: the scheduled medications whose list contains `time`, in
      input order. */
  function MedsAt(medications: seq<Medication>, time: string): (r: seq<Medication>)
    ensures forall i :: 0 <= i < |r| ==> r[i] in medications && !r[i].isPrn && time in r[i].scheduleTimes
    ensures forall i :: 0 <= i < |medications| && !medications[i].isPrn && time in medications[i].scheduleTimes
                        ==> medications[i] in r
  {
    Filter(Scheduled(medications), (m: Medication) => time in m.scheduleTimes)
  }

  /** Appending a medication adds it at the end of a slot exactly when it is
      scheduled and lists that time, so a slot's cards keep the order of the
      medications list. */
  lemma MedsAtStep(medications: seq<Medication>, m: Medication, time: string)
    ensures MedsAt(medications + [m], time)
            == MedsAt(medications, time) + (if !m.isPrn && time in m.scheduleTimes then [m] else [])
  {
    var p := (x: Medication) => time in x.scheduleTimes;
    SplitStep(medications, m);
    FilterAppend(Scheduled(medications), if m.isPrn then [] else [m], p);
    FilterCons(m, [], p);
    assert [m] + [] == [m];
  }

  /** No slot is empty: each has at least one medication card. */
  lemma SlotsAreNonEmpty(medications: seq<Medication>, time: string)
    requires time in SlotTimes(medications)
    ensures |MedsAt(medications, time)| > 0
  {
    var i :| 0 <= i < |medications| && !medications[i].isPrn && time in medications[i].scheduleTimes;
    assert medications[i] in MedsAt(medications, time);
  }

  predicate HasSlot(l: MedicationLog) {
    l.scheduledTime.Some?
  }

  /** `completedCount`: every log with a slot, whichever medication or time it
      names. */
  function CompletedCount(logs: seq<MedicationLog>): (n: nat)
    ensures n <= |logs|
  {
    |Filter(logs, HasSlot)|
  }

  /** `completedCount` grows by one for each slotted log and ignores
      as-needed logs. */
  lemma CompletedCountStep(logs: seq<MedicationLog>, l: MedicationLog)
    ensures CompletedCount([]) == 0
    ensures CompletedCount(logs + [l]) == CompletedCount(logs) + (if l.scheduledTime.Some? then 1 else 0)
  {
    FilterAppend(logs, [l], HasSlot);
  }

  /** The count is not reconciled with the schedule: a log for a time no
      medication lists still counts, and two logs for one slot count twice,
      so `completedCount` can exceed `totalScheduled`. */
  lemma CompletedCountOvercounts(m: Medication, l1: MedicationLog, l2: MedicationLog)
    requires !m.isPrn && m.scheduleTimes == ["08:00"]
    requires l1.medicationId == m.id && l1.scheduledTime == Some("08:00")
    requires l2.medicationId == m.id && l2.scheduledTime == Some("08:00")
    ensures TotalScheduled([m]) == 1
    ensures CompletedCount([l1, l2]) == 2
    ensures CompletedCount([l1]) == 1 && TotalScheduled([]) == 0
  {
    assert [m][..0] == [];
    CompletedCountStep([], l1);
    CompletedCountStep([l1], l2);
    assert [] + [l1] == [l1];
    assert [l1] + [l2] == [l1, l2];
  }

  /** "All done!": the counters agree and something is scheduled. */
  predicate AllDone(completed: nat, total: nat) {
    completed == total && total > 0
  }

  /** The progress bar width in percent; 0 when nothing is scheduled. */
  function BarWidth(completed: nat, total: nat): (w: real)
    ensures total == 0 ==> w == 0.0
    ensures total > 0 ==> w * (total as real) == (completed as real) * 100.0
    ensures total > 0 && completed <= total ==> 0.0 <= w <= 100.0
  {
    if total > 0 then (completed as real / total as real) * 100.0 else 0.0
  }

  /** `medLogs` of an as-needed card: the logs with its id, in input order;
      the slot is not consulted. */
  function PrnLogs(logs: seq<MedicationLog>, medicationId: string): (r: seq<MedicationLog>)
    ensures forall i :: 0 <= i < |r| ==> r[i].medicationId == medicationId && r[i] in logs
    ensures forall i :: 0 <= i < |logs| && logs[i].medicationId == medicationId ==> logs[i] in r
  {
    Filter(logs, (l: MedicationLog) => l.medicationId == medicationId)
  }

  /** Appending a log extends the card's list by that log exactly when it
      carries the card's id, so the list keeps input order. */
  lemma PrnLogsStep(logs: seq<MedicationLog>, l: MedicationLog, medicationId: string)
    ensures PrnLogs(logs + [l], medicationId)
            == PrnLogs(logs, medicationId) + (if l.medicationId == medicationId then [l] else [])
  {
    FilterAppend(logs, [l], (x: MedicationLog) => x.medicationId == medicationId);
  }

  datatype SlotView = SlotView(time: string, header: TimeSlot.SlotHeader, cards: seq<TimeSlot.SlotCard>)
  datatype PrnView = PrnView(medication: Medication, todayLogs: seq<MedicationLog>)
  datatype DayView = DayView(
    slots: seq<SlotView>,
    prn: seq<PrnView>,
    completedCount: nat,
    totalScheduled: nat,
    allDone: bool,
    barWidth: real)

  /** The timeline row of one slot time. */
  function Row(medications: seq<Medication>, logs: seq<MedicationLog>, now: Clock, time: string): (v: SlotView)
    ensures v.time == time && |v.cards| == |MedsAt(medications, time)|
    ensures v.header == TimeSlot.Header(now, time)
    ensures v.cards == TimeSlot.Cards(MedsAt(medications, time), time, logs)
  {
    SlotView(time, TimeSlot.Header(now, time), TimeSlot.Cards(MedsAt(medications, time), time, logs))
  }

  /** One timeline row per slot time, in the order given. */
  function SlotViews(medications: seq<Medication>, logs: seq<MedicationLog>, now: Clock, times: seq<string>)
    : (r: seq<SlotView>)
    ensures |r| == |times|
    ensures forall i :: 0 <= i < |r| ==> r[i] == Row(medications, logs, now, times[i])
  {
    seq(|times|, i requires 0 <= i < |times| => Row(medications, logs, now, times[i]))
  }

  /** The whole daily view for the given clock. */
  function View(medications: seq<Medication>, logs: seq<MedicationLog>, now: Clock): (v: DayView)
    ensures |v.slots| == |SlotTimes(medications)|
    ensures forall i :: 0 <= i < |v.slots| ==>
              v.slots[i].time == SlotTimes(medications)[i]
              && |v.slots[i].cards| == |MedsAt(medications, v.slots[i].time)|
    ensures |v.prn| == |Prn(medications)|
    ensures forall i :: 0 <= i < |v.prn| ==>
              && v.prn[i].medication == Prn(medications)[i] && v.prn[i].medication.isPrn
              && forall j :: 0 <= j < |v.prn[i].todayLogs| ==> v.prn[i].todayLogs[j].medicationId == v.prn[i].medication.id
    ensures forall i :: 0 <= i < |v.slots| ==> v.slots[i] == Row(medications, logs, now, SlotTimes(medications)[i])
    ensures forall i :: 0 <= i < |v.prn| ==> v.prn[i].todayLogs == PrnLogs(logs, v.prn[i].medication.id)
    ensures v.completedCount == CompletedCount(logs) <= |logs|
    ensures v.totalScheduled == TotalScheduled(medications)
    ensures v.barWidth == BarWidth(v.completedCount, v.totalScheduled)
    ensures v.allDone <==> CompletedCount(logs) == TotalScheduled(medications) && TotalScheduled(medications) > 0
  {
    var prn := Prn(medications);
    var total := TotalScheduled(medications);
    var completed := CompletedCount(logs);
    DayView(SlotViews(medications, logs, now, SlotTimes(medications)),
            seq(|prn|, i requires 0 <= i < |prn| => PrnView(prn[i], PrnLogs(logs, prn[i].id))),
            completed, total, AllDone(completed, total), BarWidth(completed, total))
  }

  /** The rendered timeline runs in ascending time order and no row is
      empty. */
  lemma ViewTimeline(medications: seq<Medication>, logs: seq<MedicationLog>, now: Clock)
    ensures var v := View(medications, logs, now);
            && (forall i, j :: 0 <= i < j < |v.slots| ==> Below(v.slots[i].time, v.slots[j].time))
            && (forall i :: 0 <= i < |v.slots| ==> |v.slots[i].cards| > 0)
  {
    var v := View(medications, logs, now);
    var times := SlotTimes(medications);
    forall i | 0 <= i < |v.slots| ensures |v.slots[i].cards| > 0 {
      SlotsAreNonEmpty(medications, times[i]);
    }
  }
}

=== FILE: daytimepicker.dfy ===
/** The day and time picker of the add-medication form: the select-all
    label, the seven day buttons, and one row of time inputs per selected
    day. Rendering sorts the selection in place, so the form's own day list
    ends up ascending. */
module DayTimePicker {
  import opened Wrappers
  import opened Ordering
  import opened AddMedicationForm

  const DayLabels: seq<string> := ["S", "M", "T", "W", "T", "F", "S"]
  const DayNames: seq<string> := ["Sunday", "Monday", "Tuesday", "Wednesday", "Thursday", "Friday", "Saturday"]

  /** The select-all button reads "Clear all" once seven days are selected. */
  function SelectAllLabel(selectedDays: seq<int>): (s: string)
    ensures s == "Clear all" <==> |selectedDays| == 7
    ensures s == "Every day" <==> |selectedDays| != 7
  {
    if |selectedDays| == 7 then "Clear all" else "Every day"
  }

  datatype DayButton = DayButton(day: int, caption: string, highlighted: bool)

  /** One button per weekday, Sunday first, highlighted when selected. */
  function DayButtons(selectedDays: seq<int>): (bs: seq<DayButton>)
    ensures |bs| == 7
    ensures forall d :: 0 <= d < 7 ==>
              bs[d].day == d && bs[d].caption == DayLabels[d] && (bs[d].highlighted <==> d in selectedDays)
  {
    seq(7, d requires 0 <= d < 7 => DayButton(d, DayLabels[d], d in selectedDays))
  }

  /** `dayTimes[day] || ['08:00']`: the inputs shown for a day. An empty
      stored list is kept (an empty array is not falsy). */
  function ShownTimes(dayTimes: map<int, seq<string>>, day: int): (ts: seq<string>)
    ensures day in dayTimes ==> ts == dayTimes[day]
    ensures day !in dayTimes ==> ts == [DefaultTime]
  {
    if day in dayTimes then dayTimes[day] else [DefaultTime]
  }

  /** Remove buttons appear when the stored list (not the shown one) has
      more than one time, so the fallback input can never be removed. */
  function Removable(dayTimes: map<int, seq<string>>, day: int): (removable: bool)
    ensures removable <==> day in dayTimes && |dayTimes[day]| > 1
    ensures removable ==> |ShownTimes(dayTimes, day)| > 1
    ensures ShownTimes(dayTimes, day) == [DefaultTime] && day !in dayTimes ==> !removable
  {
    |TimesOf(dayTimes, day)| > 1
  }

  /** The weekday name, when the day is a weekday. */
  function DayName(day: int): (name: Option<string>)
    ensures name.Some? <==> 0 <= day < 7
    ensures name.Some? ==> name.value == DayNames[day]
  {
    if 0 <= day < 7 then Some(DayNames[day]) else None
  }

  datatype DayRow = DayRow(day: int, name: Option<string>, times: seq<string>, removable: bool)

  function Row(dayTimes: map<int, seq<string>>, day: int): DayRow {
    DayRow(day, DayName(day), ShownTimes(dayTimes, day), Removable(dayTimes, day))
  }

  function Rows(days: seq<int>, dayTimes: map<int, seq<string>>): (rows: seq<DayRow>)
    ensures |rows| == |days|
    ensures forall i :: 0 <= i < |rows| ==> rows[i] == Row(dayTimes, days[i])
  {
    seq(|days|, i requires 0 <= i < |days| => Row(dayTimes, days[i]))
  }

  datatype PickerView = PickerView(selectAll: string, buttons: seq<DayButton>, rows: seq<DayRow>)

  /** Rendering sorts `selectedDays` in place: the form afterwards holds the
      ascending order. */
  function SortInPlace(f: FormData): (r: FormData)
    ensures SameDetails(f, r) && r.dayTimes == f.dayTimes
    ensures Ascending(r.selectedDays)
    ensures multiset(r.selectedDays) == multiset(f.selectedDays)
    ensures |r.selectedDays| == |f.selectedDays|
  {
    assert |multiset(SortAscending(f.selectedDays))| == |multiset(f.selectedDays)|;
    f.(selectedDays := SortAscending(f.selectedDays))
  }

  /** The picker for a form, and the form after the in-place sort. */
  function Render(f: FormData): (out: (PickerView, FormData))
    ensures out.1 == SortInPlace(f)
    ensures out.0.selectAll == SelectAllLabel(f.selectedDays)
    ensures out.0.buttons == DayButtons(f.selectedDays)
    ensures |out.0.rows| == |f.selectedDays|
    ensures forall i :: 0 <= i < |out.0.rows| ==> out.0.rows[i] == Row(f.dayTimes, out.1.selectedDays[i])
  {
    var sorted := SortInPlace(f);
    var rows := if |sorted.selectedDays| > 0 then Rows(sorted.selectedDays, f.dayTimes) else [];
    (PickerView(SelectAllLabel(f.selectedDays), DayButtons(f.selectedDays), rows), sorted)
  }

  lemma MultisetMembership(a: seq<int>, b: seq<int>)
    requires multiset(a) == multiset(b)
    ensures forall d :: d in a <==> d in b
  {
    assert forall d :: d in a <==> d in multiset(a);
    assert forall d :: d in b <==> d in multiset(b);
  }

  lemma {:induction false} MultisetDistinct(a: seq<int>, b: seq<int>)
    requires multiset(a) == multiset(b) && Distinct(a)
    ensures Distinct(b)
  {
    forall i, j | 0 <= i < j < |b| ensures b[i] != b[j] {
      if b[i] == b[j] {
        var d := b[i];
        assert multiset(b)[d] >= 2 by {
          assert b == b[..i] + [b[i]] + b[i + 1..j] + [b[j]] + b[j + 1..];
        }
        DistinctCount(a, d);
      }
    }
  }

  lemma {:induction false} DistinctCount(a: seq<int>, d: int)
    requires Distinct(a)
    ensures multiset(a)[d] <= 1
  {
    if |a| > 0 {
      var n := |a| - 1;
      assert a == a[..n] + [a[n]];
      DistinctCount(a[..n], d);
      if a[n] == d {
        assert d !in a[..n];
        assert multiset(a[..n])[d] == 0;
      }
    }
  }

  /** The in-place sort keeps a consistent form consistent and submits the
      same entries, now in ascending day order, each day's times in their
      stored order. */
  lemma SortKeepsMeaning(f: FormData)
    requires Consistent(f)
    ensures Consistent(SortInPlace(f))
    ensures forall e :: e in BuildSchedule(SortInPlace(f)) <==> e in BuildSchedule(f)
    ensures DayOrdered(BuildSchedule(SortInPlace(f)))
    ensures f.isPrn != Some(true) ==> forall day ::
              TimesFor(BuildSchedule(SortInPlace(f)), day) == if day in f.selectedDays then TimesOf(f.dayTimes, day) else []
  {
    var g := SortInPlace(f);
    if f.isPrn != Some(true) {
      EntriesByDay(g.selectedDays, g.dayTimes);
      forall day ensures TimesFor(BuildSchedule(g), day) == if day in f.selectedDays then TimesOf(f.dayTimes, day) else [] {
        MultisetDistinct(f.selectedDays, g.selectedDays);
        MultisetMembership(f.selectedDays, g.selectedDays);
        EntriesPerDay(g.selectedDays, g.dayTimes, day);
      }
    }
    MultisetMembership(f.selectedDays, g.selectedDays);
    MultisetDistinct(f.selectedDays, g.selectedDays);
    assert DaySet(g.selectedDays) == DaySet(f.selectedDays) by {
      assert forall d :: d in DaySet(g.selectedDays) <==> d in g.selectedDays;
      assert forall d :: d in DaySet(f.selectedDays) <==> d in f.selectedDays;
    }
    forall i | 0 <= i < |g.selectedDays| ensures 0 <= g.selectedDays[i] < 7 {
      assert g.selectedDays[i] in f.selectedDays;
    }
  }

  /** The rows of a consistent form list each selected day once, in
      ascending weekday order, each with its name; the sorted form stays
      consistent and submits the same entries in ascending day order. */
  lemma RenderOrdersDays(f: FormData)
    requires Consistent(f)
    ensures var (view, g) := Render(f);
            && Consistent(g)
            && (forall i, j :: 0 <= i < j < |view.rows| ==> view.rows[i].day < view.rows[j].day)
            && (forall i :: 0 <= i < |view.rows| ==> view.rows[i].name.Some?)
            && (forall e :: e in BuildSchedule(g) <==> e in BuildSchedule(f))
            && DayOrdered(BuildSchedule(g))
  {
    var (view, g) := Render(f);
    SortKeepsMeaning(f);
    forall i | 0 <= i < |view.rows| ensures view.rows[i].name.Some? {
      assert g.selectedDays[i] in g.selectedDays;
    }
  }

  /** A consistent form whose stored time lists are all non-empty. */
  ghost predicate Filled(f: FormData) {
    Consistent(f) && forall d :: d in f.dayTimes ==> |f.dayTimes[d]| > 0
  }

  /** In a filled form every row shows exactly the stored times: the
      "08:00" fallback never appears. */
  lemma FilledShowsStored(f: FormData, day: int)
    requires Filled(f) && day in f.selectedDays
    ensures ShownTimes(f.dayTimes, day) == f.dayTimes[day]
    ensures |ShownTimes(f.dayTimes, day)| > 0
  {
    assert day in DaySet(f.selectedDays);
  }

  /** A day toggle keeps a form filled. */
  lemma ToggleKeepsFilled(f: FormData, day: int)
    requires Filled(f) && 0 <= day < 7
    ensures Filled(ToggleDay(f, day))
  {
    ToggleKeepsConsistent(f, day);
    var r := ToggleDay(f, day);
    forall d | d in r.dayTimes ensures |r.dayTimes[d]| > 0 {
      if d != day {
        assert SameEntry(f.dayTimes, r.dayTimes, d);
      }
    }
  }

  /** Select-all, in either direction, keeps a form filled. */
  lemma SelectAllKeepsFilled(f: FormData)
    requires Filled(f)
    ensures Filled(SelectAllDays(f))
  {
    SelectAllKeepsConsistent(f);
    var r := SelectAllDays(f);
    if |f.selectedDays| != 7 {
      forall d | d in r.dayTimes ensures |r.dayTimes[d]| > 0 {
        assert 0 <= d < 7;
      }
    }
  }

  /** Adding a time, editing a shown input, and removing one only while its
      remove button is shown keep a form filled. */
  lemma TimeControlsKeepFilled(f: FormData, day: int, index: int, time: string)
    requires Filled(f) && day in f.selectedDays
    ensures Filled(AddTime(f, day))
    ensures Removable(f.dayTimes, day) ==> Filled(RemoveTime(f, day, index))
    ensures Filled(ChangeTime(f, day, index, time))
  {
    TimeEditsKeepConsistent(f, day, index, time);
    assert day in DaySet(f.selectedDays);
  }
}

=== FILE: doctorcontacts.dfy ===
/** The doctor contacts card: emergency contacts listed before routine ones,
    each as a `tel:` link with a subtitle, and the add form's guard. */
module DoctorContacts {
  import opened Wrappers
  import opened Text

  datatype Contact = Contact(
    id: string,
    name: string,
    specialty: Option<string>,
    phone: string,
    isEmergency: bool,
    notes: Option<string>)

  predicate IsEmergency(c: Contact) {
    c.isEmergency
  }

  predicate IsRoutine(c: Contact) {
    !c.isEmergency
  }

  function Emergency(contacts: seq<Contact>): seq<Contact> {
    Filter(contacts, IsEmergency)
  }

  function Routine(contacts: seq<Contact>): seq<Contact> {
    Filter(contacts, IsRoutine)
  }

  /** " — ", the separator in subtitles (an em dash between spaces). */
  const Dash: string := " — "

  /** The line under a contact's name: the phone, then "Emergency" for an
      emergency contact, or the specialty when a routine contact has a
      non-empty one. */
  function Subtitle(c: Contact): (s: string)
    ensures c.isEmergency ==> s == c.phone + Dash + "Emergency"
    ensures !c.isEmergency && c.specialty.Some? && c.specialty.value != "" ==>
              s == c.phone + Dash + c.specialty.value
    ensures !c.isEmergency && (c.specialty.None? || c.specialty.value == "") ==> s == c.phone
  {
    if c.isEmergency then c.phone + Dash + "Emergency"
    else match c.specialty
      case Some(sp) => if sp != "" then c.phone + Dash + sp else c.phone
      case None => c.phone
  }

  /** A rendered contact: the link target, the name, the subtitle, and
      whether it has the emergency styling. */
  datatype Entry = Entry(contact: Contact, href: string, title: string, subtitle: string, emergency: bool)

  function EntryOf(c: Contact): (e: Entry)
    ensures e.contact == c && e.href == "tel:" + c.phone && e.title == c.name
    ensures e.emergency == c.isEmergency
  {
    Entry(c, "tel:" + c.phone, c.name, Subtitle(c), c.isEmergency)
  }

  function Entries(contacts: seq<Contact>): (es: seq<Entry>)
    ensures |es| == |contacts|
    ensures forall i :: 0 <= i < |es| ==> es[i] == EntryOf(contacts[i])
  {
    seq(|contacts|, i requires 0 <= i < |contacts| => EntryOf(contacts[i]))
  }

  /** The list: `None` stands for "No contacts added yet"; otherwise the
      emergency entries, then the routine ones, each group in input order. */
  function Listing(contacts: seq<Contact>): (r: Option<seq<Entry>>)
    ensures r.None? <==> |contacts| == 0
    ensures r.Some? ==> |r.value| == |contacts|
    ensures r.Some? ==> forall i :: 0 <= i < |r.value| ==>
              && r.value[i].contact in contacts
              && r.value[i] == EntryOf(r.value[i].contact)
  {
    if |contacts| == 0 then None
    else
      FilterPartition(contacts, IsEmergency, IsRoutine);
      Some(Entries(Emergency(contacts)) + Entries(Routine(contacts)))
  }

  function ContactsOf(es: seq<Entry>): (cs: seq<Contact>)
    ensures |cs| == |es|
    ensures forall i :: 0 <= i < |cs| ==> cs[i] == es[i].contact
  {
    seq(|es|, i requires 0 <= i < |es| => es[i].contact)
  }

  /** The list shows every contact exactly once: the emergency contacts in
      input order, then the routine ones in input order. */
  lemma ListingIsPermutation(contacts: seq<Contact>)
    requires |contacts| > 0
    ensures ContactsOf(Listing(contacts).value) == Emergency(contacts) + Routine(contacts)
    ensures multiset(ContactsOf(Listing(contacts).value)) == multiset(contacts)
  {
    var em := Emergency(contacts);
    var ro := Routine(contacts);
    var es := Listing(contacts).value;
    FilterPartition(contacts, IsEmergency, IsRoutine);
    var cs := ContactsOf(es);
    forall k | 0 <= k < |cs| ensures cs[k] == (em + ro)[k] {
      if k < |em| {
        assert es[k] == EntryOf(em[k]);
      } else {
        assert es[k] == EntryOf(ro[k - |em|]);
      }
    }
    assert cs == em + ro;
  }

  /** Each group keeps input order: listing the contacts of `a` followed by
      those of `b` shows `a`'s emergency contacts before `b`'s, and likewise
      for the routine ones. */
  lemma GroupsKeepInputOrder(a: seq<Contact>, b: seq<Contact>)
    requires |a + b| > 0
    ensures ContactsOf(Listing(a + b).value)
            == Emergency(a) + Emergency(b) + Routine(a) + Routine(b)
  {
    ListingIsPermutation(a + b);
    FilterAppend(a, b, IsEmergency);
    FilterAppend(a, b, IsRoutine);
  }

  /** The entries with the emergency styling are exactly the first ones, so
      every emergency contact is listed before every routine one. */
  lemma EmergencyFirst(contacts: seq<Contact>)
    requires |contacts| > 0
    ensures var es := Listing(contacts).value;
            forall i :: 0 <= i < |es| ==> (es[i].emergency <==> i < |Emergency(contacts)|)
  {
    var em := Emergency(contacts);
    var ro := Routine(contacts);
    var es := Listing(contacts).value;
    forall i | 0 <= i < |es| ensures es[i].emergency <==> i < |em| {
      if i < |em| {
        assert es[i] == EntryOf(em[i]);
      } else {
        assert es[i] == EntryOf(ro[i - |em|]);
      }
    }
  }

  /** `onAdd(name.trim(), phone.trim(), specialty.trim(), isEmergency)`. */
  datatype AddRequest = AddRequest(name: string, phone: string, specialty: string, isEmergency: bool)

  /** The add form's fields. */
  datatype Form = Form(name: string, phone: string, specialty: string, isEmergency: bool, pending: bool)

  const EmptyForm: Form := Form("", "", "", false, false)

  /** `handleAdd`: nothing is sent unless both the name and the phone have
      text after trimming; the specialty may be blank. */
  function HandleAdd(f: Form): (req: Option<AddRequest>)
    ensures req.None? <==> IsBlank(f.name) || IsBlank(f.phone)
    ensures req.Some? ==> req.value == AddRequest(Trim(f.name), Trim(f.phone), Trim(f.specialty), f.isEmergency)
  {
    if IsBlank(f.name) || IsBlank(f.phone) then None
    else Some(AddRequest(Trim(f.name), Trim(f.phone), Trim(f.specialty), f.isEmergency))
  }

  /** The Add Contact button is enabled exactly when a press sends a
      request. */
  predicate CanAdd(f: Form) {
    !f.pending && !IsBlank(f.name) && !IsBlank(f.phone)
  }

  lemma EnabledIffSends(f: Form)
    requires !f.pending
    ensures CanAdd(f) <==> HandleAdd(f).Some?
  {
  }

  /** An added contact's name and phone are never blank and are already
      trimmed. */
  lemma AddedFieldsAreClean(f: Form)
    requires HandleAdd(f).Some?
    ensures var r := HandleAdd(f).value;
            && !IsBlank(r.name) && !IsBlank(r.phone)
            && Trim(r.name) == r.name && Trim(r.phone) == r.phone && Trim(r.specialty) == r.specialty
  {
    var r := HandleAdd(f).value;
    assert r.name == Trim(f.name) && r.phone == Trim(f.phone) && r.specialty == Trim(f.specialty);
    TrimIdempotent(f.name);
    TrimIdempotent(f.phone);
    TrimIdempotent(f.specialty);
  }
}

=== FILE: feelingcheckin.dfy ===
/** The "How are you feeling?" check-in: the part of the day the current
    hour falls in, the check-in already stored for it, the slider defaults,
    the three-cell summary of today, and the request a save sends. */
module FeelingCheckin {
  import opened Wrappers
  import opened Text

  datatype Period = Morning | Afternoon | Evening

  const Periods: seq<Period> := [Morning, Afternoon, Evening]

  /** The stored text of a period. */
  function PeriodKey(p: Period): (s: string)
    ensures p == Morning <==> s == "morning"
    ensures p == Afternoon <==> s == "afternoon"
    ensures p == Evening <==> s == "evening"
  {
    match p
    case Morning => "morning"
    case Afternoon => "afternoon"
    case Evening => "evening"
  }

  /** The capitalised period in the heading of the expanded form. */
  function PeriodLabel(p: Period): string {
    match p
    case Morning => "Morning"
    case Afternoon => "Afternoon"
    case Evening => "Evening"
  }

  /** `getCurrentPeriod`: before noon is morning, before 17:00 afternoon,
      the rest evening. */
  function PeriodOf(hour: int): (p: Period)
    ensures p == Morning <==> hour < 12
    ensures p == Afternoon <==> 12 <= hour < 17
    ensures p == Evening <==> hour >= 17
  {
    if hour < 12 then Morning else if hour < 17 then Afternoon else Evening
  }

  /** A stored check-in; `notes` is nullable. */
  datatype Checkin = Checkin(
    id: string,
    period: string,
    painLevel: int,
    moodLevel: int,
    energyLevel: int,
    notes: Option<string>)

  /** The first of today's check-ins recorded for the period. */
  function CheckinFor(checkins: seq<Checkin>, p: Period): (r: Option<Checkin>)
    ensures r.None? <==> forall i :: 0 <= i < |checkins| ==> checkins[i].period != PeriodKey(p)
    ensures r.Some? ==>
              && r.value.period == PeriodKey(p)
              && exists i ::
                   && 0 <= i < |checkins| && checkins[i] == r.value
                   && forall j :: 0 <= j < i ==> checkins[j].period != PeriodKey(p)
  {
    Find(checkins, (c: Checkin) => c.period == PeriodKey(p))
  }

  /** `level || 5`: a missing check-in and a stored 0 both start at 5. */
  function LevelOr5(level: Option<int>): (v: int)
    ensures level.Some? && level.value != 0 ==> v == level.value
    ensures level.None? || level.value == 0 ==> v == 5
  {
    match level
    case Some(n) => if n != 0 then n else 5
    case None => 5
  }

  /** The slider and notes values the form starts with. */
  datatype Draft = Draft(pain: int, mood: int, energy: int, notes: string)

  function Defaults(existing: Option<Checkin>): (d: Draft)
    ensures existing.None? ==> d == Draft(5, 5, 5, "")
    ensures existing.Some? ==>
              && d.pain == (if existing.value.painLevel != 0 then existing.value.painLevel else 5)
              && d.mood == (if existing.value.moodLevel != 0 then existing.value.moodLevel else 5)
              && d.energy == (if existing.value.energyLevel != 0 then existing.value.energyLevel else 5)
              && d.notes == (if existing.value.notes.Some? then existing.value.notes.value else "")
  {
    match existing
    case None => Draft(LevelOr5(None), LevelOr5(None), LevelOr5(None), "")
    case Some(c) =>
      Draft(LevelOr5(Some(c.painLevel)), LevelOr5(Some(c.moodLevel)), LevelOr5(Some(c.energyLevel)),
            match c.notes case Some(n) => n case None => "")
  }

  /** A stored level the sliders can show (1 to 10). */
  predicate OnScale(level: int) {
    1 <= level <= 10
  }

  /** The sliders start on the scale whatever was stored there, as long as
      the stored levels are on the scale or 0. */
  lemma DefaultsOnScale(existing: Option<Checkin>)
    requires existing.Some? ==>
               && (OnScale(existing.value.painLevel) || existing.value.painLevel == 0)
               && (OnScale(existing.value.moodLevel) || existing.value.moodLevel == 0)
               && (OnScale(existing.value.energyLevel) || existing.value.energyLevel == 0)
    ensures var d := Defaults(existing);
            OnScale(d.pain) && OnScale(d.mood) && OnScale(d.energy)
  {
  }

  /** `submitCheckin(currentPeriod, pain, mood, energy, notes)`. */
  datatype SubmitRequest = SubmitRequest(period: string, pain: int, mood: int, energy: int, notes: string)

  function Submit(current: Period, d: Draft): (req: SubmitRequest)
    ensures req.period == PeriodKey(current)
    ensures req.pain == d.pain && req.mood == d.mood && req.energy == d.energy && req.notes == d.notes
  {
    SubmitRequest(PeriodKey(current), d.pain, d.mood, d.energy, d.notes)
  }

  /** Saving the untouched form re-sends the stored check-in of the current
      period: its levels (unless stored as 0) and its notes (a null note as
      ""). */
  lemma UntouchedSaveResends(checkins: seq<Checkin>, current: Period)
    requires CheckinFor(checkins, current).Some?
    ensures var c := CheckinFor(checkins, current).value;
            var req := Submit(current, Defaults(Some(c)));
            && req.period == c.period
            && (c.painLevel != 0 ==> req.pain == c.painLevel)
            && (c.moodLevel != 0 ==> req.mood == c.moodLevel)
            && (c.energyLevel != 0 ==> req.energy == c.energyLevel)
            && (c.notes.Some? ==> req.notes == c.notes.value)
            && (c.notes.None? ==> req.notes == "")
  {
  }

  /** One summary cell per period. */
  datatype Cell = Logged(pain: int) | DueNow | NotDue

  function CellFor(checkins: seq<Checkin>, current: Period, p: Period): (c: Cell)
    ensures c.Logged? <==> CheckinFor(checkins, p).Some?
    ensures c.Logged? ==> c.pain == CheckinFor(checkins, p).value.painLevel
    ensures c == DueNow <==> CheckinFor(checkins, p).None? && p == current
  {
    match CheckinFor(checkins, p)
    case Some(ci) => Logged(ci.painLevel)
    case None => if p == current then DueNow else NotDue
  }

  function IntToString(n: int): string {
    if n >= 0 then NatToString(n) else "-" + NatToString(-n)
  }

  /** The text under a cell's period name; the three kinds of cell never
      read alike. */
  function CellText(c: Cell): (t: string)
    ensures t == "Due now" <==> c == DueNow
    ensures t == "--" <==> c == NotDue
    ensures c.Logged? <==> |t| > 5 && t[..5] == "Pain " && t[|t| - 3..] == "/10"
  {
    match c
    case Logged(pain) => "Pain " + IntToString(pain) + "/10"
    case DueNow => "Due now"
    case NotDue => "--"
  }

  /** The summary row: shown only while collapsed and once something was
      recorded today, with a cell for morning, afternoon and evening. */
  function Summary(expanded: bool, checkins: seq<Checkin>, current: Period): (cells: Option<seq<Cell>>)
    ensures cells.Some? <==> !expanded && |checkins| > 0
    ensures cells.Some? ==> |cells.value| == 3
    ensures cells.Some? ==> forall i :: 0 <= i < 3 ==> cells.value[i] == CellFor(checkins, current, Periods[i])
  {
    if !expanded && |checkins| > 0 then
      Some(seq(3, i requires 0 <= i < 3 => CellFor(checkins, current, Periods[i])))
    else None
  }

  /** At most one cell of the summary says "Due now", and only the current
      period's cell can. */
  lemma OnlyCurrentIsDue(expanded: bool, checkins: seq<Checkin>, current: Period)
    requires Summary(expanded, checkins, current).Some?
    ensures var cells := Summary(expanded, checkins, current).value;
            forall i :: 0 <= i < 3 && cells[i] == DueNow ==> Periods[i] == current
  {
  }

  /** The heading of the expanded form. */
  function Heading(current: Period, existing: Option<Checkin>): (s: string)
    ensures existing.Some? ==> s == PeriodLabel(current) + " check-in (updating)"
    ensures existing.None? ==> s == PeriodLabel(current) + " check-in "
  {
    PeriodLabel(current) + " check-in " + (if existing.Some? then "(updating)" else "")
  }

  /** The save button's caption. */
  function ButtonLabel(pending: bool, existing: Option<Checkin>): (s: string)
    ensures pending ==> s == "Saving..."
    ensures !pending && existing.Some? ==> s == "Update Check-in"
    ensures !pending && existing.None? ==> s == "Save Check-in"
  {
    if pending then "Saving..." else if existing.Some? then "Update Check-in" else "Save Check-in"
  }

  /** The summary and the form agree: the current period's cell shows a
      pain level exactly when the form is updating a stored check-in, and
      that level is the one the pain slider starts at (unless stored as 0). */
  lemma SummaryAgreesWithForm(checkins: seq<Checkin>, hour: int)
    requires |checkins| > 0
    ensures var current := PeriodOf(hour);
            var existing := CheckinFor(checkins, current);
            var cells := Summary(false, checkins, current).value;
            var i := if current == Morning then 0 else if current == Afternoon then 1 else 2;
            && (cells[i].Logged? <==> ButtonLabel(false, existing) == "Update Check-in")
            && (cells[i].Logged? && cells[i].pain != 0 ==> Defaults(existing).pain == cells[i].pain)
            && (cells[i] == DueNow <==> ButtonLabel(false, existing) == "Save Check-in")
  {
  }
}

=== FILE: medicationcard.dfy ===
/** A medication card in the timeline and the as-needed card: the status
    derived from the card's log, the buttons offered, and the request each
    button sends to the (unmodelled) server actions. */
module MedicationCard {
  import opened Wrappers
  import opened Records

  /** The `isTaken` / `isSkipped` / `isLogged` flags of a card. */
  datatype CardStatus = CardStatus(isTaken: bool, isSkipped: bool, isLogged: bool)

  function StatusOf(log: Option<MedicationLog>): (st: CardStatus)
    ensures !(st.isTaken && st.isSkipped)
    ensures st.isLogged <==> log.Some?
    ensures st.isTaken <==> log.Some? && log.value.status == Taken
    ensures st.isSkipped <==> log.Some? && log.value.status == Skipped
  {
    var taken := log.Some? && log.value.status == Taken;
    var skipped := log.Some? && log.value.status == Skipped;
    CardStatus(taken, skipped, taken || skipped)
  }

  datatype Action = Undo | Skip | Take

  /** The buttons: Undo alone once logged, otherwise Skip then Take. */
  function ActionsOf(log: Option<MedicationLog>): (actions: seq<Action>)
    ensures Undo in actions <==> log.Some?
    ensures Skip in actions <==> log.None?
    ensures Take in actions <==> log.None?
    ensures |actions| == if log.Some? then 1 else 2
  {
    if StatusOf(log).isLogged then [Undo] else [Skip, Take]
  }

  /** A request handed to the server actions `logMedication` and
      `undoMedicationLog`. */
  datatype Request =
    | LogMedication(medicationId: string, status: LogStatus, scheduledTime: Option<string>)
    | UndoMedicationLog(logId: string)

  /** `handleLog(status)`: logs the card's medication at the card's slot. */
  function HandleLog(medication: Medication, scheduledTime: Option<string>, status: LogStatus): (req: Request)
    ensures req.LogMedication?
    ensures req.medicationId == medication.id && req.status == status && req.scheduledTime == scheduledTime
  {
    LogMedication(medication.id, status, scheduledTime)
  }

  /** `handleUndo`: removes the card's log, and does nothing without one. */
  function HandleUndo(log: Option<MedicationLog>): (req: Option<Request>)
    ensures req.None? <==> log.None?
    ensures req.Some? ==> req.value == UndoMedicationLog(log.value.id)
  {
    match log
    case None => None
    case Some(l) => Some(UndoMedicationLog(l.id))
  }

  /** A press of one of the card's buttons. Every button is disabled while
      the card's last request is still pending (`disabled={isPending}`), so
      a press then sends nothing. */
  function Press(medication: Medication, scheduledTime: Option<string>, log: Option<MedicationLog>,
                 pending: bool, action: Action): (req: Option<Request>)
    ensures pending ==> req.None?
    ensures !pending && action == Undo ==> req == HandleUndo(log)
    ensures !pending && action != Undo ==> req.Some? && req.value.LogMedication?
                                           && (req.value.status == Taken <==> action == Take)
  {
    if pending then None
    else
      match action
      case Undo => HandleUndo(log)
      case Skip => Some(HandleLog(medication, scheduledTime, Skipped))
      case Take => Some(HandleLog(medication, scheduledTime, Taken))
  }

  /** A button the card offers sends exactly one request unless one is
      still pending: on a logged card it removes that log, on an unlogged one
      it logs this medication at this slot with the button's status. */
  lemma OfferedActionsIssueRequests(medication: Medication, scheduledTime: Option<string>,
                                    log: Option<MedicationLog>, pending: bool, action: Action)
    requires action in ActionsOf(log)
    ensures var req := Press(medication, scheduledTime, log, pending, action);
            && (req.Some? <==> !pending)
            && (req.Some? && log.Some? ==> req.value == UndoMedicationLog(log.value.id))
            && (req.Some? && log.None? ==> req.value.LogMedication?
                                           && req.value.medicationId == medication.id
                                           && req.value.scheduledTime == scheduledTime
                                           && (req.value.status == Taken <==> action == Take))
  {
  }

  /** The as-needed card's Log button: always "taken", never a slot. */
  function PrnHandleLog(medication: Medication): (req: Request)
    ensures req == LogMedication(medication.id, Taken, None)
  {
    HandleLog(medication, None, Taken)
  }

  /** A press of the as-needed card's Log button, which is disabled while
      its last request is pending. */
  function PrnPress(medication: Medication, pending: bool): (req: Option<Request>)
    ensures req.Some? <==> !pending
    ensures req.Some? ==> req.value.LogMedication? && req.value.medicationId == medication.id
                          && req.value.status == Taken && req.value.scheduledTime.None?
  {
    if pending then None else Some(PrnHandleLog(medication))
  }
}

=== FILE: ordering.dfy ===
/** The two orders the views sort by: JavaScript's default `sort()` on
    strings (character by character) and `sort((a, b) => a - b)` on numbers,
    with the sorted, duplicate-free insertion used to build a set of slot
    times. */
module Ordering {

  /** `a` sorts strictly before `b` under the default string order. */
  predicate Below(a: string, b: string)
  {
    if |a| == 0 then |b| > 0
    else if |b| == 0 then false
    else a[0] < b[0] || (a[0] == b[0] && Below(a[1..], b[1..]))
  }

  lemma {:induction false} BelowIrreflexive(a: string)
    ensures !Below(a, a)
  {
    if |a| > 0 {
      BelowIrreflexive(a[1..]);
    }
  }

  lemma {:induction false} BelowTransitive(a: string, b: string, c: string)
    requires Below(a, b) && Below(b, c)
    ensures Below(a, c)
  {
    if |a| > 0 && |b| > 0 && |c| > 0 && a[0] == b[0] == c[0] {
      BelowTransitive(a[1..], b[1..], c[1..]);
    }
  }

  lemma {:induction false} BelowTotal(a: string, b: string)
    ensures a == b || Below(a, b) || Below(b, a)
  {
    if |a| > 0 && |b| > 0 && a[0] == b[0] {
      BelowTotal(a[1..], b[1..]);
      if a[1..] == b[1..] {
        assert a == [a[0]] + a[1..] && b == [b[0]] + b[1..];
      }
    }
  }

  lemma {:induction false} BelowAsymmetric(a: string, b: string)
    requires Below(a, b)
    ensures !Below(b, a)
  {
    if |a| > 0 && |b| > 0 && a[0] == b[0] {
      BelowAsymmetric(a[1..], b[1..]);
    }
  }

  /** Ascending with no repeats. */
  predicate StrictlySorted(s: seq<string>)
  {
    forall i, j :: 0 <= i < j < |s| ==> Below(s[i], s[j])
  }

  /** Adds `x` to a strictly sorted sequence, keeping it strictly sorted and
      without repeating an element already present. */
  function InsertUnique(s: seq<string>, x: string): (r: seq<string>)
    requires StrictlySorted(s)
    ensures StrictlySorted(r)
    ensures forall y :: y in r <==> y in s || y == x
    ensures |r| <= |s| + 1
  {
    if |s| == 0 then [x]
    else if s[0] == x then s
    else if Below(x, s[0]) then
      assert forall j :: 0 < j < |s| ==> Below(x, s[j]) by {
        forall j | 0 < j < |s| ensures Below(x, s[j]) {
          BelowTransitive(x, s[0], s[j]);
        }
      }
      [x] + s
    else
      BelowTotal(x, s[0]);
      var rest := InsertUnique(s[1..], x);
      assert forall y :: y in s <==> y == s[0] || y in s[1..] by {
        assert s == [s[0]] + s[1..];
      }
      assert forall k :: 0 <= k < |rest| ==> Below(s[0], rest[k]) by {
        forall k | 0 <= k < |rest| ensures Below(s[0], rest[k]) {
          assert rest[k] in rest;
          if rest[k] != x {
            var j :| 1 <= j < |s| && s[j] == rest[k];
          }
        }
      }
      [s[0]] + rest
  }

  /** Two strictly sorted sequences with the same elements are equal: a
      sorted set of strings has exactly one order. */
  lemma {:induction false} StrictlySortedUnique(a: seq<string>, b: seq<string>)
    requires StrictlySorted(a) && StrictlySorted(b)
    requires forall y :: y in a <==> y in b
    ensures a == b
  {
    assert |a| == 0 <==> |b| == 0 by {
      if |a| > 0 { assert a[0] in a; }
      if |b| > 0 { assert b[0] in b; }
    }
    if |a| > 0 {
      if a[0] != b[0] {
        assert a[0] in b;
        assert b[0] in a;
        var i :| 0 <= i < |b| && b[i] == a[0];
        var j :| 0 <= j < |a| && a[j] == b[0];
        assert Below(b[0], a[0]);
        assert Below(a[0], b[0]);
        BelowAsymmetric(a[0], b[0]);
      }
      forall y ensures y in a[1..] <==> y in b[1..] {
        if y in a[1..] {
          var k :| 1 <= k < |a| && a[k] == y;
          BelowIrreflexive(a[0]);
          assert y != b[0];
          assert y in b;
        }
        if y in b[1..] {
          var k :| 1 <= k < |b| && b[k] == y;
          BelowIrreflexive(b[0]);
          assert y != a[0];
          assert y in a;
        }
      }
      StrictlySortedUnique(a[1..], b[1..]);
      assert a == [a[0]] + a[1..] && b == [b[0]] + b[1..];
    }
  }

  /** Non-decreasing, the order `sort((a, b) => a - b)` leaves numbers in. */
  predicate Ascending(s: seq<int>)
  {
    forall i, j :: 0 <= i < j < |s| ==> s[i] <= s[j]
  }

  /** A lower bound of every element may be put in front. */
  lemma AscendingCons(x: int, t: seq<int>)
    requires Ascending(t) && forall k :: 0 <= k < |t| ==> x <= t[k]
    ensures Ascending([x] + t)
  {
    var r := [x] + t;
    forall i, j | 0 <= i < j < |r| ensures r[i] <= r[j] {
      assert r[j] == t[j - 1];
      if i > 0 {
        assert r[i] == t[i - 1];
      }
    }
  }

  /** A bound below every element of `t` and below `x` bounds every
      element of a permutation of `t` plus `x`. */
  lemma BoundBelow(lo: int, t: seq<int>, x: int, r: seq<int>)
    requires forall k :: 0 <= k < |t| ==> lo <= t[k]
    requires lo <= x && multiset(r) == multiset(t) + multiset{x}
    ensures forall k :: 0 <= k < |r| ==> lo <= r[k]
  {
    forall k | 0 <= k < |r| ensures lo <= r[k] {
      assert r[k] in multiset(r);
      if r[k] != x {
        assert r[k] in multiset(t);
        var j :| 0 <= j < |t| && t[j] == r[k];
      }
    }
  }

  function InsertAscending(s: seq<int>, x: int): (r: seq<int>)
    requires Ascending(s)
    ensures Ascending(r)
    ensures multiset(r) == multiset(s) + multiset{x}
  {
    if |s| == 0 || x <= s[0] then
      AscendingCons(x, s);
      [x] + s
    else
      var t := s[1..];
      assert s == [s[0]] + t;
      var rest := InsertAscending(t, x);
      BoundBelow(s[0], t, x, rest);
      AscendingCons(s[0], rest);
      [s[0]] + rest
  }

  /** `s.sort((a, b) => a - b)`: an ascending permutation of `s`. */
  function SortAscending(s: seq<int>): (r: seq<int>)
    ensures Ascending(r)
    ensures multiset(r) == multiset(s)
  {
    if |s| == 0 then []
    else
      assert s == s[..|s| - 1] + [s[|s| - 1]];
      InsertAscending(SortAscending(s[..|s| - 1]), s[|s| - 1])
  }
}

=== FILE: quickactivity.dfy ===
/** The care-activity card: the category chips, the log form's guard and
    state, and the list of today's first five activities with each one's
    category emoji. */
module QuickActivity {
  import opened Wrappers
  import opened Text

  datatype Category = Category(value: string, caption: string, emoji: string)

  const Memo: string := "\U{1F4DD}"

  const Categories: seq<Category> := [
    Category("wound_care", "Wound Care", "\U{1FA79}"),
    Category("exercise", "Exercise", "\U{1F3C3}"),
    Category("hygiene", "Hygiene", "\U{1F6BF}"),
    Category("nutrition", "Nutrition", "\U{1F34E}"),
    Category("other", "Other", Memo)
  ]

  const DefaultCategory: string := "wound_care"

  /** The category keys are distinct, so a key names one category. */
  lemma CategoryValuesDistinct()
    ensures forall i, j :: 0 <= i < j < |Categories| ==> Categories[i].value != Categories[j].value
  {
  }

  predicate IsCategory(value: string) {
    exists i :: 0 <= i < |Categories| && Categories[i].value == value
  }

  /** `CATEGORIES.find(c => c.value === category)?.emoji || '📝'`: the
      category's emoji, or the memo emoji for an unknown key. */
  function EmojiFor(category: string): (e: string)
    ensures forall i :: 0 <= i < |Categories| && Categories[i].value == category ==> e == Categories[i].emoji
    ensures !IsCategory(category) ==> e == Memo
    ensures e != ""
  {
    match Find(Categories, (c: Category) => c.value == category)
    case Some(c) =>
      CategoryValuesDistinct();
      if c.emoji != "" then c.emoji else Memo
    case None => Memo
  }

  datatype Activity = Activity(id: string, category: string, description: string, activityTime: string)

  /** A row of the list (the localised time is not modelled). */
  datatype Row = Row(id: string, emoji: string, description: string)

  /** `None` stands for "No activities logged today"; otherwise the first
      five activities in the given order. */
  function Recent(activities: seq<Activity>): (rows: Option<seq<Row>>)
    ensures rows.None? <==> |activities| == 0
    ensures rows.Some? ==> |rows.value| == if |activities| < 5 then |activities| else 5
    ensures rows.Some? ==> forall i :: 0 <= i < |rows.value| ==>
              rows.value[i] == Row(activities[i].id, EmojiFor(activities[i].category), activities[i].description)
  {
    if |activities| == 0 then None
    else
      var shown := Take(activities, 5);
      Some(seq(|shown|, i requires 0 <= i < |shown| =>
        Row(shown[i].id, EmojiFor(shown[i].category), shown[i].description)))
  }

  /** `logCareActivity(category, description.trim(), '')`. */
  datatype LogRequest = LogRequest(category: string, description: string, notes: string)

  /** The form: open or not, the chosen category, the text, and whether a
      request is in flight. */
  datatype Form = Form(showForm: bool, category: string, description: string, pending: bool)

  const InitialForm: Form := Form(false, DefaultCategory, "", false)

  /** `handleSubmit`: a blank description sends nothing. */
  function HandleSubmit(f: Form): (req: Option<LogRequest>)
    ensures req.None? <==> IsBlank(f.description)
    ensures req.Some? ==> req.value == LogRequest(f.category, Trim(f.description), "")
  {
    if IsBlank(f.description) then None else Some(LogRequest(f.category, Trim(f.description), ""))
  }

  datatype Event = ToggleForm | Choose(index: nat) | Type(text: string) | Submitted | Cancel

  /** The form's transitions. A chip sets the category to its key; a
      finished submit clears the text and closes the form but keeps the
      category. */
  function Step(f: Form, e: Event): (r: Form)
    ensures e.Choose? && e.index < |Categories| ==> r.category == Categories[e.index].value
    ensures e == Submitted ==> r.category == f.category && r.description == "" && !r.showForm
    ensures e == ToggleForm ==> r.showForm == !f.showForm && r.category == f.category
    ensures e.Type? ==> r.description == e.text && r.category == f.category
  {
    match e
    case ToggleForm => f.(showForm := !f.showForm)
    case Choose(i) => if i < |Categories| then f.(category := Categories[i].value) else f
    case Type(text) => f.(description := text)
    case Submitted => f.(description := "", showForm := false, pending := false)
    case Cancel => f.(showForm := false)
  }

  /** From a known category, any run of form events leaves a known one, so
      a submit always sends one of the five keys. */
  lemma {:induction false} CategoryStaysKnown(f: Form, events: seq<Event>)
    requires IsCategory(f.category)
    ensures IsCategory(Run(f, events).category)
    decreases |events|
  {
    if |events| > 0 {
      var g := Step(f, events[0]);
      if events[0].Choose? && events[0].index < |Categories| {
        assert Categories[events[0].index].value == g.category;
      }
      CategoryStaysKnown(g, events[1..]);
    }
  }

  function Run(f: Form, events: seq<Event>): Form
    decreases |events|
  {
    if |events| == 0 then f else Run(Step(f, events[0]), events[1..])
  }

  /** The default category is a known one. */
  lemma DefaultIsKnown()
    ensures IsCategory(InitialForm.category)
    ensures EmojiFor(DefaultCategory) == "\U{1FA79}"
  {
    assert Categories[0].value == DefaultCategory;
  }
}

=== FILE: records.dfy ===
/** The stored rows the medication views read: a medication and a log of one
    dose. Only the fields the views consult are kept. */
module Records {
  import opened Wrappers

  datatype LogStatus = Taken | Skipped

  /** A medication row. `scheduleTimes` holds "HH:MM" strings and is what the
      daily view groups by; it carries no weekday. */
  datatype Medication = Medication(
    id: string,
    name: string,
    purpose: string,
    scheduleTimes: seq<string>,
    isPrn: bool,
    takeWithFood: bool)

  /** A medication log row. `scheduledTime` is `None` for an as-needed dose
      and names the slot ("HH:MM") otherwise. */
  datatype MedicationLog = MedicationLog(
    id: string,
    medicationId: string,
    scheduledTime: Option<string>,
    status: LogStatus,
    loggedBy: string,
    loggedAt: string,
    logDate: string)

  /** A time of day as `split(':').map(Number)` reads a well-formed "HH:MM". */
  datatype Clock = Clock(hour: nat, minute: nat)
}

=== FILE: syncstatus.dfy ===
/** The sync indicator hook: a status of synced, syncing or offline, driven
    by the connectivity flag, by `setSyncing`, and by the two-second timer
    that turns "syncing" back into "synced". Each event is followed by the
    hook's effect, which forces "offline" while disconnected and turns
    "offline" into "synced" on reconnection. */
module SyncStatus {
  import opened Wrappers

  datatype Status = Synced | Syncing | Offline

  /** Delay of the automatic reset to "synced", in milliseconds. */
  const AutoResetMs: nat := 2000

  /** A scheduled reset; `id` tells timers apart. */
  datatype Timer = Timer(id: nat, delayMs: nat)

  /** The hook's state: the status, the connectivity flag, the pending reset
      (`syncingTimeoutId`) and the id the next timer gets. */
  datatype State = State(status: Status, online: bool, timer: Option<Timer>, nextId: nat)

  /** The first render: "synced", with no timer. */
  function Initial(online: bool): (s: State)
    ensures s.timer.None?
    ensures s.status == if online then Synced else Offline
  {
    Settle(State(Synced, online, None, 0))
  }

  /** The effect on `[isOnline, syncStatus]`. */
  function Settle(s: State): (r: State)
    ensures !s.online ==> r.status == Offline
    ensures s.online && s.status == Offline ==> r.status == Synced
    ensures s.online && s.status != Offline ==> r.status == s.status
    ensures r.online == s.online && r.timer == s.timer && r.nextId == s.nextId
  {
    if !s.online then s.(status := Offline)
    else if s.status == Offline then s.(status := Synced)
    else s
  }

  datatype Event =
    | Connectivity(online: bool)
    | SetSyncing(isSyncing: bool)
    | Fire(id: nat)

  /** One event, then the effect. `setSyncing` does nothing while offline;
      `setSyncing(true)` cancels any pending reset and schedules a new one;
      `setSyncing(false)` cancels it and reports "synced" at once. Only the
      pending timer can fire: a cancelled one never runs. */
  function Step(s: State, e: Event): (r: State)
    ensures e.SetSyncing? && !s.online ==> r == Settle(s)
    ensures e.SetSyncing? && s.online && e.isSyncing ==>
              r.status == Syncing && r.timer == Some(Timer(s.nextId, AutoResetMs))
    ensures e.SetSyncing? && s.online && !e.isSyncing ==> r.status == Synced && r.timer.None?
    ensures e.Fire? && (s.timer.None? || s.timer.value.id != e.id) ==> r == Settle(s)
    ensures e.Fire? && s.timer.Some? && s.timer.value.id == e.id ==>
              r.timer.None? && r.status == (if s.online then Synced else Offline)
    ensures e.Connectivity? ==> r.online == e.online && r.timer == s.timer && r.nextId == s.nextId
    ensures e.Connectivity? && !e.online ==> r.status == Offline
    ensures e.Connectivity? && e.online ==> r.status == (if s.status == Offline then Synced else s.status)
    ensures r.nextId >= s.nextId
  {
    match e
    case Connectivity(b) => Settle(s.(online := b))
    case SetSyncing(syncing) =>
      if !s.online then Settle(s)
      else if syncing then Settle(State(Syncing, s.online, Some(Timer(s.nextId, AutoResetMs)), s.nextId + 1))
      else Settle(s.(status := Synced, timer := None))
    case Fire(id) =>
      if s.timer.Some? && s.timer.value.id == id then Settle(s.(status := Synced, timer := None))
      else Settle(s)
  }

  function Run(s: State, events: seq<Event>): State
    decreases |events|
  {
    if |events| == 0 then s else Run(Step(s, events[0]), events[1..])
  }

  /** What every reachable state satisfies: "offline" exactly while
      disconnected, a pending reset whenever "syncing", and timer ids below
      the next one. */
  predicate Good(s: State) {
    && (s.status == Offline <==> !s.online)
    && (s.status == Syncing ==> s.timer.Some?)
    && (s.timer.Some? ==> s.timer.value.id < s.nextId && s.timer.value.delayMs == AutoResetMs)
  }

  lemma StepKeepsGood(s: State, e: Event)
    requires Good(s)
    ensures Good(Step(s, e))
  {
  }

  lemma {:induction false} RunKeepsGood(s: State, events: seq<Event>)
    requires Good(s)
    ensures Good(Run(s, events))
    decreases |events|
  {
    if |events| > 0 {
      StepKeepsGood(s, events[0]);
      RunKeepsGood(Step(s, events[0]), events[1..]);
    }
  }

  lemma InitialIsGood(online: bool)
    ensures Good(Initial(online))
  {
  }

  /** The periodic health check reports "online" while already online: a
      no-op, so a pending "syncing" stays until its timer fires. */
  lemma HealthCheckKeepsState(s: State)
    requires Good(s) && s.online
    ensures Step(s, Connectivity(true)) == s
  {
  }

  /** "Syncing" never sticks: in a good state that is syncing while
      connected, firing the pending timer brings back "synced". */
  lemma SyncingResolves(s: State)
    requires Good(s) && s.status == Syncing
    ensures Step(s, Fire(s.timer.value.id)).status == Synced
  {
  }

  /** A newer `setSyncing(true)` cancels the earlier reset: firing the old
      timer afterwards leaves the state alone, so the indicator keeps
      "syncing" until the newer timer fires. */
  lemma RestartCancelsOldTimer(s: State)
    requires Good(s) && s.online && s.timer.Some?
    ensures var t := Step(s, SetSyncing(true));
            && Step(t, Fire(s.timer.value.id)) == t
            && t.status == Syncing
  {
  }

  /** Nothing a caller does while disconnected changes the indicator:
      `setSyncing` calls leave the whole state as it was. */
  lemma {:induction false} OfflineIgnoresSetSyncing(s: State, calls: seq<bool>)
    requires Good(s) && !s.online
    ensures Run(s, SyncCalls(calls)) == s
    decreases |calls|
  {
    if |calls| > 0 {
      assert SyncCalls(calls)[1..] == SyncCalls(calls[1..]);
      OfflineIgnoresSetSyncing(s, calls[1..]);
    }
  }

  function SyncCalls(calls: seq<bool>): (es: seq<Event>)
    ensures |es| == |calls|
    ensures forall i :: 0 <= i < |es| ==> es[i] == SetSyncing(calls[i])
  {
    seq(|calls|, i requires 0 <= i < |calls| => SetSyncing(calls[i]))
  }

  /** Reconnecting always shows "synced", even when a sync was under way as
      the connection dropped: "syncing" is not restored, though its timer
      may still be pending. */
  lemma ReconnectShowsSynced(s: State)
    requires Good(s) && !s.online
    ensures Step(s, Connectivity(true)).status == Synced
  {
  }
}

=== FILE: tasklist.dfy ===
/** The shared task list: pending tasks with their assignee line, the
    collapsed list of completed tasks, and the assign form that creates a
    task for the other household member. */
module TaskList {
  import opened Wrappers
  import opened Text

  datatype Task = Task(
    id: string,
    title: string,
    description: Option<string>,
    assignedTo: string,
    assignedBy: string,
    status: string,
    createdAt: string)

  datatype Profile = Profile(id: string, displayName: Option<string>, email: string)

  /** `new Map(profiles.map(p => [p.id, p])).get(id)`: with repeated ids the
      last profile wins. */
  function ProfileById(profiles: seq<Profile>, id: string): (r: Option<Profile>)
    ensures r.None? <==> forall i :: 0 <= i < |profiles| ==> profiles[i].id != id
    ensures r.Some? ==>
              exists i :: && 0 <= i < |profiles| && profiles[i] == r.value && r.value.id == id
                          && forall j :: i < j < |profiles| ==> profiles[j].id != id
  {
    if |profiles| == 0 then None
    else
      var n := |profiles| - 1;
      if profiles[n].id == id then Some(profiles[n])
      else
        var r := ProfileById(profiles[..n], id);
        assert forall i :: 0 <= i < n ==> profiles[..n][i] == profiles[i];
        if r.Some? then
          ghost var i :| && 0 <= i < n && profiles[..n][i] == r.value
                         && forall j :: i < j < n ==> profiles[..n][j].id != id;
          assert profiles[i] == r.value && forall j :: i < j < |profiles| ==> profiles[j].id != id;
          r
        else r
  }

  /** Adding a profile makes it the one found for its id and changes no
      other id's profile. */
  lemma ProfileByIdLastWins(profiles: seq<Profile>, p: Profile, id: string)
    ensures ProfileById(profiles + [p], p.id) == Some(p)
    ensures id != p.id ==> ProfileById(profiles + [p], id) == ProfileById(profiles, id)
  {
    assert (profiles + [p])[..|profiles|] == profiles;
  }

  /** The first profile that is not the current user. */
  function OtherUser(profiles: seq<Profile>, me: string): (r: Option<Profile>)
    ensures r.None? <==> forall i :: 0 <= i < |profiles| ==> profiles[i].id == me
    ensures r.Some? ==> r.value.id != me
    ensures r.Some? ==> exists i :: && 0 <= i < |profiles| && profiles[i] == r.value
                                    && forall j :: 0 <= j < i ==> profiles[j].id == me
  {
    Find(profiles, (p: Profile) => p.id != me)
  }

  /** `otherUser?.email || ''`. */
  function OtherEmail(other: Option<Profile>): (e: string)
    ensures other.None? ==> e == ""
    ensures other.Some? ==> e == other.value.email
  {
    match other
    case Some(p) => p.email
    case None => ""
  }

  /** `profile?.display_name || 'other'`: a missing profile, a null name and
      an empty name all read "other". */
  function NameOrOther(profile: Option<Profile>): (s: string)
    ensures profile.Some? && profile.value.displayName.Some? && profile.value.displayName.value != "" ==>
              s == profile.value.displayName.value
    ensures profile.None? || profile.value.displayName.None? || profile.value.displayName.value == "" ==>
              s == "other"
  {
    match profile
    case Some(Profile(_, Some(name), _)) => if name != "" then name else "other"
    case _ => "other"
  }

  predicate IsPending(t: Task) {
    t.status == "pending"
  }

  predicate IsCompleted(t: Task) {
    t.status == "completed"
  }

  function Pending(tasks: seq<Task>): (r: seq<Task>)
    ensures forall i :: 0 <= i < |r| ==> r[i] in tasks && r[i].status == "pending"
    ensures forall i :: 0 <= i < |tasks| && tasks[i].status == "pending" ==> tasks[i] in r
  {
    Filter(tasks, IsPending)
  }

  function Completed(tasks: seq<Task>): (r: seq<Task>)
    ensures forall i :: 0 <= i < |r| ==> r[i] in tasks && r[i].status == "completed"
    ensures forall i :: 0 <= i < |tasks| && tasks[i].status == "completed" ==> tasks[i] in r
  {
    Filter(tasks, IsCompleted)
  }

  /** No task is listed both as pending and as completed; when every task is
      one or the other, the two lists hold every task exactly once. */
  lemma PendingCompletedPartition(tasks: seq<Task>)
    ensures forall t :: t in Pending(tasks) ==> t !in Completed(tasks)
    ensures (forall i :: 0 <= i < |tasks| ==> IsPending(tasks[i]) || IsCompleted(tasks[i])) ==>
              multiset(Pending(tasks)) + multiset(Completed(tasks)) == multiset(tasks)
              && |Pending(tasks)| + |Completed(tasks)| == |tasks|
  {
    if forall i :: 0 <= i < |tasks| ==> IsPending(tasks[i]) || IsCompleted(tasks[i]) {
      FilterPartition(tasks, IsPending, IsCompleted);
    }
  }

  /** The line under a pending task's title. */
  function AssigneeLine(task: Task, me: string, profiles: seq<Profile>): (s: string)
    ensures task.assignedTo == me ==> s == "For you"
    ensures task.assignedTo != me ==> s == "For " + NameOrOther(ProfileById(profiles, task.assignedTo))
  {
    if task.assignedTo == me then "For you" else "For " + NameOrOther(ProfileById(profiles, task.assignedTo))
  }

  /** `createTask(title.trim(), '', otherEmail)`. */
  datatype CreateTaskRequest = CreateTaskRequest(title: string, description: string, assigneeEmail: string)

  /** `handleCreate`: a blank title sends nothing; otherwise the trimmed
      title goes to the other member, with an empty description. */
  function HandleCreate(title: string, otherEmail: string): (req: Option<CreateTaskRequest>)
    ensures req.None? <==> IsBlank(title)
    ensures req.Some? ==> req.value == CreateTaskRequest(Trim(title), "", otherEmail)
  {
    if Trim(title) == [] then None else Some(CreateTaskRequest(Trim(title), "", otherEmail))
  }

  /** A created task's title is never blank and has no white space left to
      trim. */
  lemma CreatedTitleIsClean(title: string, otherEmail: string)
    requires HandleCreate(title, otherEmail).Some?
    ensures var t := HandleCreate(title, otherEmail).value.title;
            !IsBlank(t) && Trim(t) == t && |t| <= |title|
  {
    TrimIdempotent(title);
  }

  /** The assign form: whether it is open, its text, and whether a request
      is in flight. */
  datatype Form = Form(showForm: bool, title: string, pending: bool)

  /** The Assign button's state: disabled while pending or blank. */
  predicate CanAssign(f: Form) {
    !f.pending && !IsBlank(f.title)
  }

  /** The Assign button's caption. */
  function AssignCaption(f: Form, other: Option<Profile>): (s: string)
    ensures f.pending ==> s == "Creating..."
    ensures !f.pending ==> s == "Assign to " + NameOrOther(other)
  {
    if f.pending then "Creating..." else "Assign to " + NameOrOther(other)
  }

  /** The state once the create request has finished: the text is cleared
      and the form closed. */
  function AfterCreate(f: Form): (r: Form)
    ensures !r.showForm && r.title == [] && !r.pending
  {
    Form(false, "", false)
  }

  /** "No pending tasks" shows when the pending list is empty and the form
      is closed, that is, exactly when no task has status "pending". */
  function ShowsEmptyMessage(tasks: seq<Task>, showForm: bool): (shows: bool)
    ensures shows <==> !showForm && forall i :: 0 <= i < |tasks| ==> tasks[i].status != "pending"
  {
    assert |Pending(tasks)| > 0 ==> Pending(tasks)[0] in tasks;
    |Pending(tasks)| == 0 && !showForm
  }

  /** Once a create has finished the form is closed and empty: the Assign
      button is disabled, Enter sends nothing more, and the empty message is
      back exactly when nothing is pending. */
  lemma AfterCreateResets(tasks: seq<Task>, f: Form, otherEmail: string)
    ensures !CanAssign(AfterCreate(f))
    ensures HandleCreate(AfterCreate(f).title, otherEmail).None?
    ensures ShowsEmptyMessage(tasks, AfterCreate(f).showForm) <==> |Pending(tasks)| == 0
  {
    assert Trim("") == "";
  }

  /** The collapsed completed section: its "n completed" caption and up to
      five titles. */
  datatype CompletedSection = CompletedSection(count: nat, caption: string, titles: seq<string>)

  function CompletedView(tasks: seq<Task>): (v: Option<CompletedSection>)
    ensures v.Some? <==> |Completed(tasks)| > 0
    ensures v.Some? ==> v.value.count == |Completed(tasks)|
                        && v.value.caption == NatToString(|Completed(tasks)|) + " completed"
    ensures v.Some? ==> |v.value.titles| == if v.value.count < 5 then v.value.count else 5
    ensures v.Some? ==> forall i :: 0 <= i < |v.value.titles| ==> v.value.titles[i] == Completed(tasks)[i].title
  {
    var done := Completed(tasks);
    if |done| == 0 then None
    else
      var shown := Take(done, 5);
      Some(CompletedSection(|done|, NatToString(|done|) + " completed",
                            seq(|shown|, i requires 0 <= i < |shown| => shown[i].title)))
  }
}

=== FILE: text.dfy ===
/** String helpers shared by the components: JavaScript's `trim()`, the
    decimal rendering of a non-negative integer (`n.toString()`), its
    inverse, and `padStart(2, '0')`. */
module Text {
  import opened Wrappers

  /** The characters `String.prototype.trim` removes: ECMAScript WhiteSpace
      (tab, vertical tab, form feed, the byte order mark and every Unicode
      space separator) and LineTerminator (LF, CR, LS, PS). */
  predicate IsWhiteSpace(c: char) {
    var n := c as int;
    n == 0x09 || n == 0x0A || n == 0x0B || n == 0x0C || n == 0x0D || n == 0x20
    || n == 0xA0 || n == 0x1680 || (0x2000 <= n <= 0x200A) || n == 0x2028
    || n == 0x2029 || n == 0x202F || n == 0x205F || n == 0x3000 || n == 0xFEFF
  }

  function TrimStart(s: string): (r: string)
    ensures |r| <= |s| && r == s[|s| - |r|..]
    ensures r == [] || !IsWhiteSpace(r[0])
    ensures forall k :: 0 <= k < |s| - |r| ==> IsWhiteSpace(s[k])
  {
    if |s| > 0 && IsWhiteSpace(s[0]) then TrimStart(s[1..]) else s
  }

  function TrimEnd(s: string): (r: string)
    ensures |r| <= |s| && r == s[..|r|]
    ensures r == [] || !IsWhiteSpace(r[|r| - 1])
    ensures forall k :: |r| <= k < |s| ==> IsWhiteSpace(s[k])
  {
    if |s| > 0 && IsWhiteSpace(s[|s| - 1]) then TrimEnd(s[..|s| - 1]) else s
  }

  /** `s.trim()`: the result neither starts nor ends with white space, and it
      is empty exactly when `s` is all white space. */
  function Trim(s: string): (r: string)
    ensures |r| <= |s|
    ensures r == [] || (!IsWhiteSpace(r[0]) && !IsWhiteSpace(r[|r| - 1]))
    ensures r == [] <==> forall k :: 0 <= k < |s| ==> IsWhiteSpace(s[k])
  {
    var t := TrimStart(s);
    var r := TrimEnd(t);
    assert r != [] ==> r[0] == t[0];
    r
  }

  /** `!s.trim()`: the JavaScript test for a blank text field. */
  predicate IsBlank(s: string) {
    Trim(s) == []
  }

  /** `Trim` removes only a white-space prefix and a white-space suffix. */
  lemma TrimIsSlice(s: string)
    ensures exists i, j :: 0 <= i <= j <= |s| && Trim(s) == s[i..j]
                           && (forall k :: 0 <= k < i ==> IsWhiteSpace(s[k]))
                           && (forall k :: j <= k < |s| ==> IsWhiteSpace(s[k]))
  {
    var t := TrimStart(s);
    var i := |s| - |t|;
    var r := TrimEnd(t);
    assert r == s[i..i + |r|];
    forall k | i + |r| <= k < |s| ensures IsWhiteSpace(s[k]) {
      assert s[k] == t[k - i];
    }
  }

  /** Trimming twice is trimming once. */
  lemma TrimIdempotent(s: string)
    ensures Trim(Trim(s)) == Trim(s)
    ensures IsBlank(Trim(s)) <==> IsBlank(s)
  {
    var r := Trim(s);
    if r != [] {
      assert TrimStart(r) == r;
      assert TrimEnd(r) == r;
    }
  }

  predicate IsDigit(c: char) {
    '0' <= c <= '9'
  }

  function DigitChar(d: nat): (c: char)
    requires d < 10
    ensures IsDigit(c) && (c as int) - ('0' as int) == d
  {
    ['0', '1', '2', '3', '4', '5', '6', '7', '8', '9'][d]
  }

  /** `n.toString()` for a non-negative integer: decimal digits, no
      leading zero. */
  function NatToString(n: nat): (r: string)
    ensures |r| >= 1
    ensures forall k :: 0 <= k < |r| ==> IsDigit(r[k])
    ensures |r| > 1 ==> r[0] != '0'
  {
    if n < 10 then [DigitChar(n)] else NatToString(n / 10) + [DigitChar(n % 10)]
  }

  function DigitValue(c: char): nat
    requires IsDigit(c)
  {
    (c as int) - ('0' as int)
  }

  /** The value of a string of decimal digits. */
  function DigitsValue(s: string): nat
    requires forall k :: 0 <= k < |s| ==> IsDigit(s[k])
  {
    if |s| == 0 then 0
    else DigitsValue(s[..|s| - 1]) * 10 + DigitValue(s[|s| - 1])
  }

  /** Reads a non-empty string of decimal digits; `None` for anything else. */
  function ParseNat(s: string): (r: Option<nat>)
    ensures r.Some? <==> |s| > 0 && forall k :: 0 <= k < |s| ==> IsDigit(s[k])
  {
    if |s| > 0 && forall k :: 0 <= k < |s| ==> IsDigit(s[k]) then Some(DigitsValue(s)) else None
  }

  /** Reading back a rendered number gives the number. */
  lemma {:induction false} ParseNatToString(n: nat)
    ensures ParseNat(NatToString(n)) == Some(n)
  {
    DigitsValueOfNatToString(n);
  }

  lemma {:induction false} DigitsValueOfNatToString(n: nat)
    ensures DigitsValue(NatToString(n)) == n
  {
    var s := NatToString(n);
    if n >= 10 {
      DigitsValueOfNatToString(n / 10);
      assert s[..|s| - 1] == NatToString(n / 10);
      assert DigitValue(s[|s| - 1]) == n % 10;
    }
  }

  /** `n.toString().padStart(2, '0')`. */
  function Pad2(n: nat): (r: string)
    ensures |r| >= 2
    ensures forall k :: 0 <= k < |r| ==> IsDigit(r[k])
    ensures n < 100 ==> r == [DigitChar(n / 10), DigitChar(n % 10)]
  {
    var s := NatToString(n);
    assert n < 10 ==> s == [DigitChar(n)];
    assert 10 <= n < 100 ==> NatToString(n / 10) == [DigitChar(n / 10)];
    if |s| < 2 then "0" + s else s
  }

  /** The position of the first `c` in `s`, as `indexOf` (with `None` for -1). */
  function IndexOf(s: string, c: char): (r: Option<nat>)
    ensures r.None? <==> c !in s
    ensures r.Some? ==> r.value < |s| && s[r.value] == c && c !in s[..r.value]
  {
    if |s| == 0 then None
    else if s[0] == c then Some(0)
    else
      var r := IndexOf(s[1..], c);
      assert s == [s[0]] + s[1..];
      if r.Some? then
        assert s[..r.value + 1] == [s[0]] + s[1..][..r.value];
        Some(r.value + 1)
      else None
  }
}

=== FILE: timeslot.dfy ===
/** One row of the daily timeline: the slot time shown in 12-hour form, its
    past/current emphasis against the current clock, and one card per
    medication due then, each paired with the log that satisfies it. */
module TimeSlot {
  import opened Wrappers
  import opened Text
  import opened Records

  /** Reads a well-formed 24-hour "HH:MM" (two digits, a colon, two digits);
      `None` for anything else. */
  function ParseClock(s: string): (r: Option<Clock>)
    ensures r.Some? <==> |s| == 5 && s[2] == ':' && IsDigit(s[0]) && IsDigit(s[1])
                         && IsDigit(s[3]) && IsDigit(s[4])
    ensures r.Some? ==> r.value.hour < 100 && r.value.minute < 100
  {
    if |s| == 5 && s[2] == ':' && IsDigit(s[0]) && IsDigit(s[1]) && IsDigit(s[3]) && IsDigit(s[4])
    then Some(Clock(DigitValue(s[0]) * 10 + DigitValue(s[1]), DigitValue(s[3]) * 10 + DigitValue(s[4])))
    else None
  }

  /** `hours % 12 || 12`. */
  function DisplayHour(hour: nat): (d: nat)
    ensures 1 <= d <= 12
    ensures d % 12 == hour % 12
  {
    if hour % 12 == 0 then 12 else hour % 12
  }

  /** "PM" from noon on, "AM" before. */
  function Meridiem(hour: nat): (s: string)
    ensures s == "PM" <==> hour >= 12
    ensures s == "AM" || s == "PM"
  {
    if hour >= 12 then "PM" else "AM"
  }

  /** " AM" or " PM", the space included. */
  function Suffix(hour: nat): (s: string)
    ensures s == " " + Meridiem(hour)
  {
    if hour >= 12 then " PM" else " AM"
  }

  /** The display hour and its suffix name the hour they came from. */
  lemma DisplayHourTo24(hour: nat)
    requires hour < 24
    ensures To24(DisplayHour(hour), Suffix(hour)) == hour
  {
    if hour == 0 {
      assert DisplayHour(hour) == 12;
    } else if hour < 12 {
      assert DisplayHour(hour) == hour;
    } else if hour == 12 {
      assert DisplayHour(hour) == 12;
    } else {
      assert DisplayHour(hour) == hour - 12;
    }
  }

  /** `formatTime`: "h:mm AM" / "h:mm PM": the display hour, a colon, the
      minutes padded to two digits, and the half of the day. */
  function FormatTime(c: Clock): (s: string)
    ensures |s| >= 6 && s[|s| - 3..] == " " + Meridiem(c.hour)
    ensures c.minute < 100 ==> s[|s| - 6..|s| - 3] == [':', DigitChar(c.minute / 10), DigitChar(c.minute % 10)]
  {
    NatToString(DisplayHour(c.hour)) + ":" + Pad2(c.minute) + Suffix(c.hour)
  }

  /** The 24-hour hour of a 12-hour display hour and its suffix. */
  function To24(h: nat, suffix: string): nat {
    if suffix == " PM" then (if h == 12 then 12 else h + 12)
    else (if h == 12 then 0 else h)
  }

  /** Reads a 12-hour "h:mm AM" / "h:mm PM" display back into a 24-hour clock. */
  function ReadFormatted(s: string): Option<Clock>
  {
    if |s| < 3 then None
    else
      var suffix := s[|s| - 3..];
      var body := s[..|s| - 3];
      if suffix != " AM" && suffix != " PM" then None
      else
        match IndexOf(body, ':')
        case None => None
        case Some(i) =>
          match (ParseNat(body[..i]), ParseNat(body[i + 1..]))
          case (Some(h), Some(m)) =>
            if 1 <= h <= 12 then Some(Clock(To24(h, suffix), m)) else None
          case _ => None
  }

  lemma {:induction false} ParsePad2(n: nat)
    ensures ParseNat(Pad2(n)) == Some(n)
  {
    ParseNatToString(n);
    var s := NatToString(n);
    if |s| < 2 {
      var p := Pad2(n);
      assert p == "0" + s;
      assert p[..1] == "0" && p[1] == s[0];
      assert DigitsValue(s) == DigitValue(s[0]) by {
        assert s[..0] == [];
      }
      assert DigitsValue(p[..1]) == 0 by {
        assert p[..1][..0] == [];
      }
    }
  }

  /** Reading "hs:ms" followed by " AM" or " PM" splits at the colon. */
  lemma ReadFormattedParts(hs: string, ms: string, suffix: string)
    requires |hs| > 0 && forall k :: 0 <= k < |hs| ==> IsDigit(hs[k])
    requires suffix == " AM" || suffix == " PM"
    ensures var s := hs + ":" + ms + suffix;
            s[|s| - 3..] == suffix && IndexOf(s[..|s| - 3], ':') == Some(|hs|)
            && s[..|s| - 3][..|hs|] == hs && s[..|s| - 3][|hs| + 1..] == ms
  {
    var s := hs + ":" + ms + suffix;
    var body := hs + ":" + ms;
    assert s[..|s| - 3] == body;
    assert s[|s| - 3..] == suffix;
    assert ':' !in hs;
    assert body[|hs|] == ':';
    assert body[..|hs|] == hs;
    assert body[|hs| + 1..] == ms;
  }

  /** Reading a well-formed display yields its parsed hour and minute. */
  lemma ReadFormattedOf(hs: string, ms: string, suffix: string)
    requires |hs| > 0 && forall k :: 0 <= k < |hs| ==> IsDigit(hs[k])
    requires suffix == " AM" || suffix == " PM"
    requires ParseNat(hs).Some? && ParseNat(ms).Some? && 1 <= ParseNat(hs).value <= 12
    ensures ReadFormatted(hs + ":" + ms + suffix) == Some(Clock(To24(ParseNat(hs).value, suffix), ParseNat(ms).value))
  {
    ReadFormattedParts(hs, ms, suffix);
  }

  /** The 12-hour display loses nothing: for any time of day it reads back
      into the same hour and minute. */
  lemma FormatTimeRoundTrip(c: Clock)
    requires c.hour < 24
    ensures ReadFormatted(FormatTime(c)) == Some(c)
  {
    var d := DisplayHour(c.hour);
    var hs := NatToString(d);
    var ms := Pad2(c.minute);
    ParseNatToString(d);
    ParsePad2(c.minute);
    ReadFormattedOf(hs, ms, Suffix(c.hour));
    DisplayHourTo24(c.hour);
  }

  /** Midnight reads "12:mm AM" and noon "12:mm PM". */
  lemma FormatMidnightAndNoon(minute: nat)
    ensures FormatTime(Clock(0, minute)) == "12:" + Pad2(minute) + " AM"
    ensures FormatTime(Clock(12, minute)) == "12:" + Pad2(minute) + " PM"
  {
    assert NatToString(12) == "12" by {
      assert NatToString(1) == "1";
    }
  }

  function MinutesOfDay(c: Clock): nat {
    c.hour * 60 + c.minute
  }

  /** A clock reading's hour is its minutes since midnight divided by 60. */
  lemma HourOfMinutes(c: Clock)
    requires c.minute < 60
    ensures MinutesOfDay(c) / 60 == c.hour
  {
    assert c.hour * 60 <= MinutesOfDay(c) < (c.hour + 1) * 60;
  }

  /** `isPast`: the current clock has reached the slot, comparing hours and
      then minutes. For real clock readings that is "minutes since midnight
      have reached the slot's". */
  function IsPast(now: Clock, slot: Clock): (past: bool)
    ensures now.minute < 60 && slot.minute < 60 ==> (past <==> MinutesOfDay(now) >= MinutesOfDay(slot))
  {
    assert now.minute < 60 && slot.minute < 60 && now.hour > slot.hour ==>
             MinutesOfDay(now) >= (slot.hour + 1) * 60 > MinutesOfDay(slot);
    assert now.minute < 60 && slot.minute < 60 && now.hour < slot.hour ==>
             MinutesOfDay(slot) >= (now.hour + 1) * 60 > MinutesOfDay(now);
    now.hour > slot.hour || (now.hour == slot.hour && now.minute >= slot.minute)
  }

  /** `isCurrent`: the current hour is the slot's hour, whatever the
      minutes; for real clock readings, both fall in the same 60-minute
      block since midnight. */
  function IsCurrent(now: Clock, slot: Clock): (current: bool)
    ensures now.minute < 60 && slot.minute < 60 ==>
              (current <==> MinutesOfDay(now) / 60 == MinutesOfDay(slot) / 60)
  {
    if now.minute < 60 && slot.minute < 60 then
      HourOfMinutes(now);
      HourOfMinutes(slot);
      now.hour == slot.hour
    else now.hour == slot.hour
  }

  /** The slot is "Now" for the whole hour: at 8:10 an 8:30 slot is current
      but not yet past, and at 8:45 it is both. */
  lemma CurrentBeforeAndAfterSlot()
    ensures IsCurrent(Clock(8, 10), Clock(8, 30)) && !IsPast(Clock(8, 10), Clock(8, 30))
    ensures IsCurrent(Clock(8, 45), Clock(8, 30)) && IsPast(Clock(8, 45), Clock(8, 30))
  {
  }

  datatype Emphasis = Current | Past | Upcoming

  /** The label colour: current beats past. */
  function EmphasisOf(now: Clock, slot: Clock): (e: Emphasis)
    ensures e == Current <==> IsCurrent(now, slot)
    ensures e == Past <==> !IsCurrent(now, slot) && IsPast(now, slot)
    ensures e == Upcoming <==> now.hour < slot.hour
  {
    if IsCurrent(now, slot) then Current else if IsPast(now, slot) then Past else Upcoming
  }

  /** The log a card shows: the first log for this medication whose slot is
      exactly this time string. */
  function MatchLog(logs: seq<MedicationLog>, medicationId: string, time: string): (r: Option<MedicationLog>)
    ensures r.None? <==> forall i :: 0 <= i < |logs| ==>
              logs[i].medicationId != medicationId || logs[i].scheduledTime != Some(time)
    ensures r.Some? ==>
              && r.value.medicationId == medicationId && r.value.scheduledTime == Some(time)
              && exists i ::
                   && 0 <= i < |logs| && logs[i] == r.value
                   && forall j :: 0 <= j < i ==>
                        logs[j].medicationId != medicationId || logs[j].scheduledTime != Some(time)
  {
    Find(logs, (l: MedicationLog) => l.medicationId == medicationId && l.scheduledTime == Some(time))
  }

  /** A log for another medication, or for another slot, is never matched. */
  lemma MatchLogIsolation(logs: seq<MedicationLog>, medicationId: string, time: string, other: MedicationLog)
    requires other.medicationId != medicationId || other.scheduledTime != Some(time)
    ensures MatchLog(logs + [other], medicationId, time) == MatchLog(logs, medicationId, time)
    ensures MatchLog([other] + logs, medicationId, time) == MatchLog(logs, medicationId, time)
  {
    var p := (l: MedicationLog) => l.medicationId == medicationId && l.scheduledTime == Some(time);
    FindAppend(logs, [other], p);
    assert ([other] + logs)[1..] == logs;
  }

  lemma {:induction false} FindAppend<T>(a: seq<T>, b: seq<T>, p: T -> bool)
    requires forall i :: 0 <= i < |b| ==> !p(b[i])
    ensures Find(a + b, p) == Find(a, p)
  {
    if |a| == 0 {
      assert a + b == b;
    } else {
      assert (a + b)[1..] == a[1..] + b;
      FindAppend(a[1..], b, p);
    }
  }

  /** A medication card inside a slot. */
  datatype SlotCard = SlotCard(medication: Medication, scheduledTime: string, log: Option<MedicationLog>)

  /** The cards of one slot: one per medication, in the given order. */
  function Cards(medications: seq<Medication>, time: string, logs: seq<MedicationLog>): (cards: seq<SlotCard>)
    ensures |cards| == |medications|
    ensures forall i :: 0 <= i < |cards| ==>
              && cards[i].medication == medications[i]
              && cards[i].scheduledTime == time
              && (cards[i].log.Some? ==>
                    && cards[i].log.value in logs
                    && cards[i].log.value.medicationId == medications[i].id
                    && cards[i].log.value.scheduledTime == Some(time))
              && (cards[i].log.None? <==> forall j :: 0 <= j < |logs| ==>
                    logs[j].medicationId != medications[i].id || logs[j].scheduledTime != Some(time))
  {
    seq(|medications|, i requires 0 <= i < |medications| =>
      SlotCard(medications[i], time, MatchLog(logs, medications[i].id, time)))
  }

  /** The header of a slot; the label is absent when the time string is not
      a well-formed "HH:MM". The label's colour is its emphasis, and the
      "Now" badge appears exactly when that colour is the current one. */
  datatype SlotHeader = SlotHeader(caption: Option<string>, emphasis: Option<Emphasis>, showNow: bool)

  function Header(now: Clock, time: string): (h: SlotHeader)
    ensures h.caption.Some? <==> ParseClock(time).Some?
    ensures h.caption.Some? && ParseClock(time).value.hour < 24 ==>
              ReadFormatted(h.caption.value) == ParseClock(time)
    ensures h.showNow <==> ParseClock(time).Some? && ParseClock(time).value.hour == now.hour
    ensures h.emphasis.Some? <==> ParseClock(time).Some?
    ensures ParseClock(time).Some? ==> h.emphasis == Some(EmphasisOf(now, ParseClock(time).value))
    ensures h.showNow <==> h.emphasis == Some(Current)
  {
    match ParseClock(time)
    case None => SlotHeader(None, None, false)
    case Some(c) =>
      assert c.hour < 24 ==> ReadFormatted(FormatTime(c)) == Some(c) by {
        if c.hour < 24 { FormatTimeRoundTrip(c); }
      }
      SlotHeader(Some(FormatTime(c)), Some(EmphasisOf(now, c)), IsCurrent(now, c))
  }
}

=== FILE: wrappers.dfy ===
/** Optional values: the model's stand-in for the source's `T | null`,
    `T | undefined` and "absent key" cases. */
module Wrappers {

  datatype Option<+T> = None | Some(value: T) {

    /** The value, or `default` when absent (the source's `x ?? d` and,
        for values that are never falsy, `x || d`). */
    function GetOr(default: T): T {
      match this
      case Some(v) => v
      case None => default
    }
  }

  /** The first element of `s` satisfying `p`, as JavaScript's `Array.find`. */
  function Find<T>(s: seq<T>, p: T -> bool): (r: Option<T>)
    ensures r.None? <==> forall i :: 0 <= i < |s| ==> !p(s[i])
    ensures r.Some? ==> exists i :: 0 <= i < |s| && s[i] == r.value && p(s[i])
                                    && forall j :: 0 <= j < i ==> !p(s[j])
  {
    if |s| == 0 then None
    else if p(s[0]) then Some(s[0])
    else
      var r := Find(s[1..], p);
      assert forall i :: 1 <= i < |s| ==> s[1..][i - 1] == s[i];
      if r.Some? then
        ghost var i :| 0 <= i < |s[1..]| && s[1..][i] == r.value && p(s[1..][i])
                       && forall j :: 0 <= j < i ==> !p(s[1..][j]);
        assert s[i + 1] == r.value && forall j :: 0 <= j < i + 1 ==> !p(s[j]);
        r
      else r
  }

  /** The elements of `s` satisfying `p`, in order, as `Array.filter`. */
  function Filter<T>(s: seq<T>, p: T -> bool): (r: seq<T>)
    ensures |r| <= |s|
    ensures forall i :: 0 <= i < |r| ==> r[i] in s && p(r[i])
    ensures forall i :: 0 <= i < |s| && p(s[i]) ==> s[i] in r
  {
    if |s| == 0 then []
    else
      var rest := Filter(s[1..], p);
      assert s == [s[0]] + s[1..];
      if p(s[0]) then [s[0]] + rest else rest
  }

  /** The first `n` elements of `s` (all of them when there are fewer), as
      `Array.slice(0, n)`. */
  function Take<T>(s: seq<T>, n: nat): (r: seq<T>)
    ensures |r| == if |s| < n then |s| else n
    ensures forall i :: 0 <= i < |r| ==> r[i] == s[i]
  {
    if |s| <= n then s else s[..n]
  }

  /** `f`'s results for the elements of `s`, concatenated in order, as a
      `forEach` that pushes each element's results. */
  function FlatMap<A, B>(s: seq<A>, f: A -> seq<B>): seq<B> {
    if |s| == 0 then [] else FlatMap(s[..|s| - 1], f) + f(s[|s| - 1])
  }

  /** Flattening distributes over concatenation. */
  lemma {:induction false} FlatMapAppend<A, B>(a: seq<A>, b: seq<A>, f: A -> seq<B>)
    ensures FlatMap(a + b, f) == FlatMap(a, f) + FlatMap(b, f)
    decreases |b|
  {
    if |b| == 0 {
      assert a + b == a;
    } else {
      var init, x := b[..|b| - 1], b[|b| - 1];
      var ab := a + b;
      assert ab[..|ab| - 1] == a + init;
      assert ab[|ab| - 1] == x;
      FlatMapAppend(a, init, f);
      var p, q, r := FlatMap(a, f), FlatMap(init, f), f(x);
      assert (p + q) + r == p + (q + r);
    }
  }

  /** Filtering distributes over concatenation, so it keeps input order. */
  lemma {:induction false} FilterAppend<T>(a: seq<T>, b: seq<T>, p: T -> bool)
    ensures Filter(a + b, p) == Filter(a, p) + Filter(b, p)
  {
    if |a| == 0 {
      assert a + b == b;
    } else {
      assert (a + b)[1..] == a[1..] + b;
      FilterAppend(a[1..], b, p);
    }
  }

  /** Filtering a sequence with a known first element. */
  lemma FilterCons<T>(x: T, t: seq<T>, p: T -> bool)
    ensures Filter([x] + t, p) == if p(x) then [x] + Filter(t, p) else Filter(t, p)
  {
    assert ([x] + t)[1..] == t;
  }

  /** Filtering by a predicate and by its complement splits a sequence:
      together the two parts hold every element exactly as often. */
  lemma {:induction false} FilterPartition<T>(s: seq<T>, p: T -> bool, q: T -> bool)
    requires forall i :: 0 <= i < |s| ==> (p(s[i]) <==> !q(s[i]))
    ensures multiset(Filter(s, p)) + multiset(Filter(s, q)) == multiset(s)
    ensures |Filter(s, p)| + |Filter(s, q)| == |s|
  {
    if |s| > 0 {
      var x, t := s[0], s[1..];
      forall i | 0 <= i < |t| ensures p(t[i]) <==> !q(t[i]) {
        assert t[i] == s[i + 1];
      }
      FilterPartition(t, p, q);
      FilterSplitStep(x, t, p, q);
      assert s == [x] + t;
    }
    var a, b := Filter(s, p), Filter(s, q);
    assert |multiset(a)| + |multiset(b)| == |multiset(s)|;
  }

  /** One step of `FilterPartition`: the first element goes to exactly one
      side. */
  lemma FilterSplitStep<T>(x: T, t: seq<T>, p: T -> bool, q: T -> bool)
    requires p(x) <==> !q(x)
    requires multiset(Filter(t, p)) + multiset(Filter(t, q)) == multiset(t)
    ensures multiset(Filter([x] + t, p)) + multiset(Filter([x] + t, q)) == multiset([x] + t)
  {
    FilterCons(x, t, p);
    FilterCons(x, t, q);
    assert multiset([x] + t) == multiset{x} + multiset(t);
    var a, b := Filter(t, p), Filter(t, q);
    if p(x) {
      assert multiset([x] + a) == multiset{x} + multiset(a);
    } else {
      assert multiset([x] + b) == multiset{x} + multiset(b);
    }
  }
}
